=== FILE: README.md ===
# meal-sight-analyzer in Dafny

This project models the sequential logic of meal-sight-analyzer, a web application. A user photographs a meal. A hosted AI model then lists the food items with their macro nutrients and gives a confidence level, and a chat model writes dietary recommendations. The model covers five parts:

- **The server proxy** (`ApiService`). It screens the image with a moderation call and fails closed. It rejects unsafe images with a named error. It degrades text that is not JSON to an empty low-confidence result, and it normalises the chat model's recommendation answer.
- **The two HTTP handlers** (`AnalysisRoute`, `RecommendationsRoute`). They choose the status (400, 403, 500 or 200) and the response body.
- **The CSV export** (`CsvExport`, with an RFC 4180 reader in `Rfc4180`), and the confidence badge style (`ConfidenceBadge`).
- **The page state machines**: the analysis page (`AnalyzePage`), the older page without a confirm step (`LegacyIndex`), and the flag machine of the image uploader (`ImageUploader`).
- **The prompt templates** (`Prompts`) and the older browser-side client with its sample data (`LegacyService`).

Nothing in the application checks the JSON it passes around against the declared types: the analysis route returns whatever the model's text parses to, and the recommendation route hands the request's `foodAnalysis` to the service as it is. So these values are `Json`, and `JsValues` states how the JavaScript reads them: which values are truthy, what reading a property gives (and when it throws), and what a template literal makes of a value.

Every nutrient value is a natural number of tenths, so `36` stands for 3.6 (`Numbers`). The JavaScript roundings become exact integer arithmetic.

The hosted provider is outside the model. Whatever it could answer is an argument:

- `ModerationReply`, `GenerationReply` and `ChatReply` stand for the provider's answers.
- `JSON.parse` is an arbitrary partial function `parse: string -> Option<Json>`.

Each service function returns its value together with the list of provider requests it made. This makes a statement such as "an unsafe image is never sent to the model" expressible. A request records which prompt template it uses and the arguments filled into it (`Prompts.Prompt`); `Prompts.PromptText` gives the exact text sent.

The UI is modelled as pure `Step` functions over immutable state. An `Enabled` predicate says which events the rendered controls can raise. Invariants are proved over every enabled trace from the initial state.

## Model

| member | source | states |
|---|---|---|
| Numbers.RoundHalfUp | src/util/pdfGenerator.tsx:355 | `Math.round` of a value in tenths is the nearest whole number, with halves rounded up |
| Numbers.ToFixed1 | src/util/pdfGenerator.tsx:356-360 | the one-decimal rendering is digits, a point and exactly one fractional digit, with no separator or quote in it |
| Numbers.ToFixed1RoundTrip | src/util/pdfGenerator.tsx:356-360 | the one-decimal text reads back as the same number of tenths |
| Numbers.JsNumber | src/app/api/services/openai.ts:85 | the number interpolated into a summary has no point exactly when the value is whole |
| Numbers.JsNumberRoundTrip | src/app/api/services/openai.ts:88 | the interpolated number reads back as the value |
| JsValues.TemplateTextOfScalars | src/app/api/services/openai.ts:85 | a string is interpolated verbatim, and a non-negative number as text that reads back as the number |
| Json.LookupSpec | src/app/api/services/openai.ts:104 | reading a property of a parsed object finds it exactly when some member has that key, and yields the last such member |
| Types.ParseConfidence | src/types.ts:4 | exactly the strings "Low", "Medium" and "High" are confidence levels, and each names its level |
| Types.ConfidenceRoundTrip | src/types.ts:4 | every confidence level reads back from its name |
| Types.MacrosRoundTrip | src/types.ts:13-20 | the six macro values survive their JSON form |
| Types.ItemRoundTrip | src/types.ts:7-11 | a food item, with its portion and macros, survives its JSON form |
| Types.ResultRoundTrip | src/types.ts:1-5 | an analysis result survives its JSON form, so the JSON shape is faithful to the record |
| Prompts.FramedBounds | src/prompts.ts:44-73 | a prompt of the recommendations template starts with its intro line, continues with the food-items text and the totals line, and ends with the closing instructions, whatever is inserted |
| Prompts.RecommendationsPromptFrame | src/prompts.ts:44-73 | the recommendation prompt starts with the intro and a line break, ends with a line break and the closing instructions, and the food-items text and the totals follow the intro on lines of their own |
| Prompts.FramedInjective | src/prompts.ts:52 | two prompts that differ only after the fixed confidence label are equal exactly when the inserted texts are equal |
| Prompts.PromptLines | src/prompts.ts:44-73 | read line by line, the prompt is the intro's lines, the lines of the food-items text, of the totals text, of the confidence label followed by the rendered `confidenceLevel`, and of the user context, in that order, then the lines of the closing instructions; every argument is inserted verbatim |
| Prompts.PromptLinesAt | src/prompts.ts:44-73 | when the food-items text reads as some lines and the totals, confidence and context each fill one line, the prompt is the intro's lines, those lines in order, and the closing instructions' lines |
| Prompts.PromptReadsOnlyConfidence | src/prompts.ts:44-53 | two analysis values give the same prompt exactly when their `confidenceLevel` renders as the same text: nothing else of the analysis is read |
| Prompts.ConfidenceTextOfResult | src/prompts.ts:52 | for an analysis of the declared shape, the rendered `confidenceLevel` is the level's name |
| Prompts.ResultPromptsDifferByConfidence | src/prompts.ts:44-53 | for analyses of the declared shape, the prompts are equal exactly when the confidence levels are |
| Prompts.NoFoodObjectIsEmptyAnalysis | src/prompts.ts:32-37 | the object the instruction asks for when no food is seen is the empty analysis, and it decodes as one |
| ApiService.FlaggedCategories | src/app/api/services/openai.ts:24-25 | a category is listed exactly when the moderation answer marks it true |
| ApiService.FlaggedCategoriesAppend | src/app/api/services/openai.ts:25 | the filter keeps key order: filtering a concatenation concatenates the filtered parts |
| ApiService.IsImageSafe | src/app/api/services/openai.ts:24-31 | a failed or empty moderation gives unsafe with no categories; otherwise safe is the negation of `flagged` and the categories are the flagged keys |
| ApiService.AnalyzeImage | src/app/api/services/openai.ts:34-75 | moderation is always asked first; the model is asked exactly when the image is safe; every error is an `UnsafeContentError` or a plain `Error` |
| ApiService.UnsafeImageRejected | src/app/api/services/openai.ts:35-40 | the unsafe-content error occurs exactly when moderation did not clear the image, with the prefix plus the joined categories as message, and the model is not asked |
| ApiService.UnsafeMessageNamesCategories | src/app/api/services/openai.ts:37 | every flagged category appears in the error message |
| ApiService.ModerationFailureRejects | src/app/api/services/openai.ts:28-40 | a failed moderation rejects the image with the bare prefix as message and no model request |
| ApiService.ParseFailureIsEmptyAnalysis | src/app/api/services/openai.ts:61-70 | text that is not JSON yields no items, six zero totals and "Low", which is the empty analysis and the no-food object of the prompt |
| ApiService.SafeImageOutcomes | src/app/api/services/openai.ts:42-74 | for a safe image, a failed request gives exactly "Failed to analyze food image", JSON text is returned as parsed, and the two requests are moderation then generation |
| ApiService.ItemSummary | src/app/api/services/openai.ts:85 | an item's summary line starts with its name and a colon, and holds no line break unless the name does |
| ApiService.TotalMacrosText | src/app/api/services/openai.ts:88 | the totals line starts with "Total: " and is one line |
| ApiService.ItemLine | src/app/api/services/openai.ts:84-85 | an item's summary line can be built exactly when the item is an object whose `macros` is neither `null` nor missing; otherwise reading `item.macros.calories` throws |
| ApiService.ItemLines | src/app/api/services/openai.ts:83-86 | the summaries of all items exist exactly when each item's does, and are those lines in order |
| ApiService.SummaryTexts | src/app/api/services/openai.ts:83-88 | the food-items and totals texts can be built exactly when `foodItems` is an array of objects with readable `macros` and `totalMacros` is readable; the totals text starts with "Total: " |
| ApiService.ItemLineOfItem | src/app/api/services/openai.ts:84-85 | for an item of the declared shape, the summary line read from its JSON is the typed summary line |
| ApiService.SummaryOfResult | src/app/api/services/openai.ts:83-88 | for an analysis of the declared shape, the texts read from its JSON are the item summaries joined by line breaks and the typed totals line |
| ApiService.UserContext | src/app/api/services/openai.ts:89 | the user context is empty exactly when the profile is absent or falsy, and never holds a line break |
| ApiService.ReplyText | src/app/api/services/openai.ts:100 | the text handed to the parser is never empty: an absent or empty content falls back to the default object text |
| ApiService.GenerateRecommendations | src/app/api/services/openai.ts:77-110 | the chat model is asked at most once, and exactly when the items and totals can be read; an unreadable analysis gives the fallback sentence without a request; the request carries the analysis as received |
| ApiService.NormalizeRecommendations | src/app/api/services/openai.ts:103-105 | `null` is the only parsed value that throws; a nonempty list is the parsed array itself or the array in its `recommendations` member |
| ApiService.ResultRequest | src/app/api/services/openai.ts:83-97 | for an analysis of the declared shape, the one request is the recommendation prompt with the typed summaries, the totals line, the analysis and the user context |
| ApiService.FallbackExactlyOnFailure | src/app/api/services/openai.ts:83-109 | the fixed fallback sentence is the answer when the analysis cannot be summarised, the request fails, the text is not JSON or it parses to `null`; otherwise the normalised list is |
| ApiService.RecommendationShapes | src/app/api/services/openai.ts:103-105 | a bare array is returned unchanged, an object whose `recommendations` member is an array gives that array whatever else it holds, and an object without one, or any other non-null value, gives the empty list |
| ApiService.MissingContentGivesEmptyList | src/app/api/services/openai.ts:100-105 | for an analysis that can be summarised, a reply without content gives the empty list |
| ApiService.RecommendationPromptLines | src/app/api/services/openai.ts:83-90 | for an analysis of the declared shape, the chat prompt holds one summary line per food item, in order (a single empty line when there are none), then the totals, confidence and context lines, between the fixed intro and instructions |
| AnalysisRoute.Post | src/app/api/analysis/route.ts:4-28 | the status is one of 200, 400, 403 and 500, and every non-200 body is an object with `ok: false` |
| AnalysisRoute.StatusClassification | src/app/api/analysis/route.ts:7-26 | 400 exactly when `messages` is missing, and then no provider request; 403 exactly when the first image is unsafe; 200 exactly when it is safe and the model answered |
| AnalysisRoute.UnsafeMessagePassedThrough | src/app/api/analysis/route.ts:17-23 | the unsafe-content error's message reaches the client verbatim with 403 |
| AnalysisRoute.OnlyFirstMessageAnalysed | src/app/api/analysis/route.ts:11-13 | only the first message is analysed, and a result is sent unchanged with 200 |
| AnalysisRoute.EmptyMessagesIsServerError | src/app/api/analysis/route.ts:11-12 | an empty `messages` array is a 500 "Error analyzing image" with no provider request, not a 400 |
| RecommendationsRoute.Respond | src/app/api/recommendations/route.ts:12-16 | 200 with the list exactly on success; a thrown error gives 500 "Error generating recommendations" |
| RecommendationsRoute.Post | src/app/api/recommendations/route.ts:6-12 | 400 exactly when `foodAnalysis` is missing or falsy; the chat model is asked exactly when it is truthy and the service can read its items and totals |
| RecommendationsRoute.NeverServerError | src/app/api/recommendations/route.ts:6-16 | a missing or falsy analysis gives 400 "Invalid data"; otherwise the status is 200 with the service's list, and 500 never happens |
| RecommendationsRoute.MalformedAnalysisFallsBack | src/app/api/services/openai.ts:83-109 | an object without `foodItems` passes the route's check and is answered with 200 and the fallback sentence, without asking the chat model |
| Rfc4180.EscapeField | src/util/pdfGenerator.tsx:352 | a field starts with a quote exactly when it holds a special character; otherwise it is written verbatim |
| Rfc4180.FieldRoundTrip | src/util/pdfGenerator.tsx:352 | every field, whatever its characters, reads back as itself after quoting when a comma or line break follows it |
| Rfc4180.DocumentRoundTrip | src/util/pdfGenerator.tsx:344-371 | a file of newline-ended records reads back as exactly its records |
| Rfc4180.TextAfterClosingQuoteRejected | src/util/pdfGenerator.tsx:352 | a record that starts `"a"b` is not valid comma-separated text |
| CsvExport.MacroFields | src/util/pdfGenerator.tsx:353-361 | a row carries exactly six numbers, none of which needs quoting |
| CsvExport.MacroFieldsRoundTrip | src/util/pdfGenerator.tsx:355-360 | the numbers read back as the rounded calories and the exact other five values |
| CsvExport.CsvRows | src/util/pdfGenerator.tsx:344-371 | the file has one row per item plus the header and total rows, each of seven fields |
| CsvExport.GenerateCsv | src/util/pdfGenerator.tsx:344-371 | the file with RFC 4180 quoting reads back as exactly the header, item and total rows |
| CsvExport.EscapeNameAsWritten | src/util/pdfGenerator.tsx:352 | a name holding a comma is put between double quotes as it is; any other name is written unchanged |
| CsvExport.GenerateCsvAsWritten | src/util/pdfGenerator.tsx:344-371 | the file as written starts with the header line and a line break and ends with the total line and a line break |
| CsvExport.HeaderRecord | src/util/pdfGenerator.tsx:346 | the header line is the seven column titles, and none needs quoting |
| CsvExport.AsWrittenLines | src/util/pdfGenerator.tsx:346-368 | when no name holds a line break, the file starts with the header line and splits into the header, one line per item in order, and the total line, so it has `|foodItems| + 2` line breaks |
| CsvExport.AsWrittenRowFields | src/util/pdfGenerator.tsx:349-368 | an item line without commas in the name is the name and its six numbers, and the last line is "Total" and the six numbers of `totalMacros` |
| CsvExport.AsWrittenAgreesWithoutQuotes | src/util/pdfGenerator.tsx:344-371 | for names without a double quote or line break, the file as written is the RFC 4180 file |
| CsvExport.CsvReadsBack | src/util/pdfGenerator.tsx:344-371 | the RFC 4180 file reads back as the header, each item's name and numbers in order, and the totals from `totalMacros` |
| CsvExport.FirstNameBreaksFile | src/util/pdfGenerator.tsx:344-371 | any meal whose first item is named `a"b` followed by text holding a comma gives a file, as written, that no RFC 4180 reader accepts |
| CsvExport.QuotedNameBreaksFile | src/util/pdfGenerator.tsx:352 | a meal with an item named `a"b,c` gives an unreadable file as written; the corrected file reads back |
| ConfidenceBadge.ConfidenceStyle | src/util/pdfGenerator.tsx:170-177 | exactly "High", "Medium" and "Low" get a colour pair, and every style is the base badge apart from its colours |
| ConfidenceBadge.StylesDistinguishLevels | src/util/pdfGenerator.tsx:170-177 | two levels get the same style exactly when they are the same level, and any other string gets the plain base badge |
| ImageUploader.Step | src/components/ImageUploader.tsx:29-80 | a rejected file changes nothing; only the camera buttons and cancel move the camera flag; only a capture marks a preview as from the camera; `onImageSelected` is called exactly for an accepted image, a capture, "Take another photo" and cancel |
| ImageUploader.FileChoice | src/components/ImageUploader.tsx:29-50 | a missing or non-image file changes nothing and reports nothing; an image sets the preview, clears from-camera, keeps the camera flag and reports its base64 text |
| ImageUploader.ExactlyOneView | src/components/ImageUploader.tsx:92-116 | exactly one of the live camera, the preview and the placeholder is shown |
| ImageUploader.ExactlyOneCameraButton | src/components/ImageUploader.tsx:120-148 | exactly one of "Take Photo", "Capture" and "Take another photo" is shown |
| ImageUploader.CaptureNeedsLiveCamera | src/components/ImageUploader.tsx:92-137 | "Capture" is shown exactly when the live camera is mounted |
| ImageUploader.CaptureShowsPhoto | src/components/ImageUploader.tsx:52-58 | a capture shows the photo as a camera preview, closes the camera and reports the photo, whatever the state before; a non-empty photo then offers "Take another photo" |
| ImageUploader.TakePhotoOpensCamera | src/components/ImageUploader.tsx:120-122 | "Take Photo" raises only the camera flag and reports nothing; from the placeholder it shows the live camera with "Capture" |
| ImageUploader.TakePhotoOverUploadKeepsCameraHidden | src/components/ImageUploader.tsx:120-122 | "Take Photo" over an uploaded preview opens the camera flag but the camera stays hidden behind the preview |
| ImageUploader.ClearingReportsEmptyImage | src/components/ImageUploader.tsx:69-80 | cancel returns to the first screen, clearing the camera source too; "Take another photo" opens the camera, hides the preview and keeps the camera source; both report the empty image |
| ImageUploader.StepPreservesInvariant | src/components/ImageUploader.tsx:52-80 | an enabled event never leaves a camera preview with the camera open |
| ImageUploader.RunPreservesInvariant | src/components/ImageUploader.tsx:29-80 | no sequence of enabled events leaves a camera preview with the camera open |
| ImageUploader.ReachableStates | src/components/ImageUploader.tsx:120-148 | in every reachable state a camera preview is never shown with the camera open, so "Take another photo" is shown only with the camera flag down |
| ImageUploader.UploadLabelMatchesButtons | src/components/ImageUploader.tsx:120-157 | in every state the upload button reads "Upload Another Photo" exactly when "Take Photo" sits beside a preview, and "Upload Photo" exactly when there is no preview or it is from the camera |
| AnalyzePage.FailureText | src/app/analyze/page.tsx:40 | the failure text is never empty and is the error's message whenever that is nonempty |
| AnalyzePage.ResultsView | src/app/analyze/page.tsx:80 | the results component is shown exactly for a truthy result; the step is blank exactly for a falsy result other than 0, which React prints |
| AnalyzePage.Step | src/app/analyze/page.tsx:23-57 | the results step is entered exactly on success, which stores whatever the service answered; an analysis of the selected image is requested exactly on confirm, which moves to analyzing and changes nothing else; the upload step is entered exactly on failure, start and reset, and start changes nothing but the step |
| AnalyzePage.Render | src/app/analyze/page.tsx:59-84 | results are shown exactly in the results step with a truthy result; the uploader exactly in the upload and confirm steps; only the results step can be blank |
| AnalyzePage.SelectionAlwaysConfirms | src/app/analyze/page.tsx:23-26 | selecting any image, even the empty one, moves to confirm from any state and stores it, keeping the result |
| AnalyzePage.FailureKeepsResult | src/app/analyze/page.tsx:35-43 | a failure moves to upload, keeps result and image, and shows the default text exactly when the message is empty or is that text |
| AnalyzePage.ResetKeepsImage | src/app/analyze/page.tsx:53-57 | reset clears the result but not the image and shows the uploader with confirm |
| AnalyzePage.ConfirmOnlyAfterIntro | src/app/analyze/page.tsx:61-76 | the uploader gets the confirm callback exactly in the upload and confirm steps, and none in the intro |
| AnalyzePage.BlankExactlyOnFalsyAnswer | src/app/analyze/page.tsx:28-34 | as written, the results step after a success is blank exactly when the answer is `null`, `false` or the empty string |
| AnalyzePage.NullAnswerBlanksPage | src/app/analyze/page.tsx:23-80 | selecting an image, confirming and receiving `null` is a trace the controls allow, and it ends in the results step with nothing shown |
| AnalyzePage.CheckedStep | src/app/analyze/page.tsx:28-44 | with a falsy answer handled as a failure without message, the results step is entered exactly on a truthy answer and always holds one; every other event behaves as written |
| AnalyzePage.CheckedRunPreservesInvariant | src/app/analyze/page.tsx:16-57 | with the checked handlers, no sequence of events reaches the results step without a truthy result |
| AnalyzePage.CheckedNeverBlank | src/app/analyze/page.tsx:59-84 | with the checked handlers, every page reached from the start shows something, and results exactly in the results step |
| LegacyIndex.Step | src/pages/Index.tsx:22-53 | a failure always shows the fixed text; analysis starts exactly on a selection; the upload step is entered exactly on failure, start and reset; start changes nothing but the step; reset clears file and result |
| LegacyIndex.Render | src/pages/Index.tsx:55-79 | the uploader never gets a confirm callback; outside the upload step the view is the newer page's view of the matching step, so results are shown exactly in the results step with a truthy result |
| LegacyIndex.NewPageRefinesLegacy | src/pages/Index.tsx:22-53 | the newer page's select-then-confirm does what the older page's select does, with the same value handed to the analysis function; the other events keep the pages in step; the failure texts agree exactly when the message is empty or the default |
| LegacyIndex.Outcome | src/pages/Index.tsx:27-38 | the handler reaches the success branch exactly when the analysis resolves, and then stores the resolved value |
| LegacyIndex.SelectWith | src/pages/Index.tsx:22-39 | after a selection and its analysis the page keeps the selected value; it shows results exactly when the analysis resolved, and otherwise is back at upload with its old result and the fixed toast; the requests are the analysis' own |
| LegacyIndex.SelectionAlwaysFails | src/pages/Index.tsx:22-27 | as written, the uploader's string reaches `analyzeFoodImage`, which cannot read it as a file: every selection ends at upload with the fixed toast and makes no request, whatever the model would answer |
| LegacyIndex.AsWrittenNeverShowsResults | src/pages/Index.tsx:22-53 | as written, no sequence of selections, starts and resets from a page outside the results step ever reaches it |
| LegacyIndex.CheckedSelectionReachesResults | src/services/openai.ts:69-109 | with the string handed to `getAnalysis`, each selection sends one request with the image and shows results exactly when the model answers, with the parsed answer as the result |
| LegacyIndex.NoConfirmStep | src/pages/Index.tsx:55-71 | the uploader is shown, without confirm, exactly in intro and upload; a selection goes straight to analysis; both pages start in corresponding states |
| LegacyService.GetAnalysis | src/services/openai.ts:69-109 | exactly one model request is made, with the older meal instruction and the image; it fails exactly when the request fails, and then with "Failed to analyze food image" |
| LegacyService.AnalyzeFoodImage | src/services/openai.ts:22-32 | it fails exactly when reading the file or the request fails, always with "Failed to analyze food image", and an unreadable file makes no request |
| LegacyService.LegacyFallbackIsEmpty | src/services/openai.ts:94-104 | text that is not JSON yields no items, five zero totals with no fiber, and "Low" |
| LegacyService.ProxyExtendsLegacy | src/services/openai.ts:94-108 | for a safe image the server proxy fails when this client fails, with the same error, and returns the same value for JSON text |
| LegacyService.WithoutFiber | src/services/openai.ts:14-20 | the five-value record's JSON is the six-value record's JSON without its `fiber` member |
| LegacyService.MockTotalsAreSums | src/services/openai.ts:44-67 | the sample has four items and "High" confidence, and its totals are exactly the item-by-item sums |

## Left out

- Provider calls (moderation, responses, chat completions): these are network calls. Their possible answers are inputs, and the model records only which requests are made.
- `JSON.parse` internals and `JSON.stringify`: parsing is an arbitrary partial function, and response bodies are kept as JSON values.
- `request.json()` failing on a malformed body: the handlers take the body already parsed, as the fields they read.
- AnalysisRoute.Post: a present `messages` is taken to be a list of objects with a string `content`. A truthy `messages` of another shape (a string, an object, an array of other values) is not modelled: what the source does with it depends on what `messages[0].content` then reads.
- The results component (`AnalysisResult`) given a truthy value that is not an analysis is not modelled; the page model stops at which component is shown.
- Floating point: values are tenths, so amounts finer than a tenth are not represented. `x * 10` is taken to be exact before rounding.
- Types.FromJson: the application never checks the shape of the model's JSON; it only casts it. The decoder exists to state the round trips, not to model a check the source makes.
- ApiService.AnalyzeImage: returns the parsed JSON unchecked, as the source does. It does not promise that the value has the analysis shape.
- The browser `fetch` wrappers in src/app/services/openai.ts are not part of this model. They are network plumbing.
- PDF rendering and download (`MealAnalysisPDF` layout, `generatePDF`, `PDFDownloadButton`, `downloadCSV`): only `generateCSV` and `getConfidenceStyle` are modelled.
- ImageUploader: `FileReader`, the camera device, the data URL to base64 conversion and the toasts are outside the model. A chosen file arrives with its MIME type, data URL and base64 text, and `handleUploadClick` changes no state.
- AnalyzePage and LegacyIndex: scrolling and timers are left out. Each page's uploader is modelled separately from the page. Whether React keeps or remounts the uploader's state when the page switches between steps is not modelled.
- LegacyIndex: `analyzeFoodImage` is modelled only on the value the page actually passes, the uploader's string; reading a real `File` (the declared parameter type) is not reachable from the page and is kept only as the `Encoded` case of `LegacyService.AnalyzeFoodImage`.
- The prompt for meal analysis is kept as fixed text. Its JSON example is not checked against the types.

## Findings

| source | as written | input that shows it | evidently intended | confidence | as-written member | corrected member |
|---|---|---|---|---|---|---|
| src/util/pdfGenerator.tsx:352 | a food name is put in double quotes only when it holds a comma; a double quote inside is not doubled, and a name holding a double quote or line break but no comma is written verbatim | a meal with one item named `a"b,c` is written as `"a"b,c",0,0.0,…`; an RFC 4180 reader closes the field after `a` and rejects the `b` that follows | quote a field holding a comma, double quote or line break, and double each inner quote (section 2, rules 6 and 7, of RFC 4180) | high; not executed | CsvExport.QuotedNameBreaksFile | Rfc4180.FieldRoundTrip |
| src/app/analyze/page.tsx:80 | a successful analysis stores whatever the analysis route answered and moves to the results step, whose content is `analysisResult && <AnalysisResult …/>`; the route returns the model's parsed JSON unchecked | the model answers the text `null`: the route sends 200 with `null`, the page enters the results step and its main area is empty, with no control on it | treat an answer that is not a result like a failed analysis: show the failure toast and return to the upload step | medium; not executed | AnalyzePage.NullAnswerBlanksPage | AnalyzePage.CheckedNeverBlank |
| src/pages/Index.tsx:22-27 | the uploader reports the image as a string (base64 text, a camera photo, or `''` on cancel), and the page hands it to `analyzeFoodImage`, declared to take a `File`; its `fileToBase64` calls `FileReader.readAsDataURL`, which throws for a value that is not a `Blob`, so the promise rejects and the error is rethrown as "Failed to analyze food image" | any selection, for example the base64 text of a photo: no request is sent, the page shows the failure toast and returns to the upload step; a cancel (`''`) also starts such an analysis | hand the uploader's string to `getAnalysis`, which already sends a text image to the model | high; not executed | LegacyIndex.SelectionAlwaysFails | LegacyIndex.CheckedSelectionReachesResults |

=== FILE: api_service.dfy ===
/** The server-side proxy of src/app/api/services/openai.ts. The hosted provider is
    not modelled: every provider answer the proxy could receive is an argument
    (`ModerationReply`, `GenerationReply`, `ChatReply`), `JSON.parse` is an arbitrary
    partial function `parse`, and each operation returns, beside its value, the
    requests it made to the provider, so that "no request is made" can be stated. */
module ApiService {
  import opened Wrappers
  import opened Text
  import opened Json
  import opened Numbers
  import opened Types
  import opened Prompts
  import opened JsValues

  /** A request to the hosted provider, with the prompt it sends. */
  datatype Call =
    | Moderate(image: string)
    | Generate(prompt: Prompt, image: string)
    | Chat(prompt: Prompt)

  /** A value with the provider requests made while computing it, in order. */
  datatype Run<T> = Run(value: T, calls: seq<Call>)

  /** A thrown JavaScript `Error`: its `name` and its `message`. */
  datatype Error = Error(name: string, message: string)

  /** `JSON.parse`: `None` when the text is not JSON (the call throws). */
  type Parser = string -> Option<Json>

  const PlainErrorName := "Error"
  const UnsafeContentErrorName := "UnsafeContentError"
  const FlaggedContentPrefix := "Image contains flagged content: "
  const AnalysisFailedMessage := "Failed to analyze food image"

  // ---------------------------------------------------------------- moderation

  /** One entry of a moderation answer: the overall flag and the category map, in
      the order `Object.keys` lists it. */
  datatype ModerationResult = ModerationResult(flagged: bool, categories: seq<(string, bool)>)

  /** The moderation request either answers with its results or throws. */
  datatype ModerationReply = Moderated(results: seq<ModerationResult>) | ModerationThrew

  datatype SafetyVerdict = SafetyVerdict(isSafe: bool, categories: seq<string>)

  /** `Object.keys(categories).filter(c => categories[c])`. The sequence stands for
      the entries of the parsed category object, so each key occurs once. */
  function FlaggedCategories(categories: seq<(string, bool)>): (r: seq<string>)
    ensures forall k :: k in r <==> (k, true) in categories
    ensures |r| <= |categories|
    decreases |categories|
  {
    if |categories| == 0 then []
    else
      var rest := FlaggedCategories(categories[1..]);
      assert forall k :: (k, true) in categories <==> (k, true) == categories[0] || (k, true) in categories[1..];
      (if categories[0].1 then [categories[0].0] else []) + rest
  }

  /** The filter keeps the key order: it distributes over concatenation. */
  lemma {:induction false} FlaggedCategoriesAppend(a: seq<(string, bool)>, b: seq<(string, bool)>)
    ensures FlaggedCategories(a + b) == FlaggedCategories(a) + FlaggedCategories(b)
    decreases |a|
  {
    if |a| == 0 {
      assert a + b == b;
    } else {
      assert (a + b)[1..] == a[1..] + b;
      FlaggedCategoriesAppend(a[1..], b);
    }
  }

  /** `isImageSafe`: safe exactly when the first result is not flagged; when the
      request throws, or its answer has no result to read, the image counts as
      unsafe with no category (it fails closed). */
  function IsImageSafe(reply: ModerationReply): (v: SafetyVerdict)
    ensures (reply.ModerationThrew? || |reply.results| == 0) ==> v == SafetyVerdict(false, [])
    ensures reply.Moderated? && |reply.results| > 0 ==>
      && v.isSafe == !reply.results[0].flagged
      && forall k :: k in v.categories <==> (k, true) in reply.results[0].categories
  {
    match reply
    case ModerationThrew => SafetyVerdict(false, [])
    case Moderated(results) =>
      if |results| == 0 then SafetyVerdict(false, [])
      else SafetyVerdict(!results[0].flagged, FlaggedCategories(results[0].categories))
  }

  // ------------------------------------------------------------------ analysis

  /** The generation request either answers with its output text or throws. */
  datatype GenerationReply = Responded(outputText: string) | GenerationThrew

  /** The result returned when the model's text is not JSON. */
  const ParseFailureResult := JObj([
    ("foodItems", JArr([])),
    ("totalMacros", JObj([
      ("calories", JNum(0)), ("protein", JNum(0)), ("fat", JNum(0)),
      ("carbs", JNum(0)), ("sugar", JNum(0)), ("fiber", JNum(0))])),
    ("confidenceLevel", JStr("Low"))])

  /** The error thrown for an unsafe image. */
  function UnsafeContentError(categories: seq<string>): Error {
    Error(UnsafeContentErrorName, FlaggedContentPrefix + Join(categories, ", "))
  }

  /** `analyzeImageWithAI`: moderation first; an unsafe image is rejected with an
      `UnsafeContentError` before any generation request. Otherwise the image goes to
      the model with the meal-analysis instruction; its text is returned as parsed
      (unchecked: the source only casts it), text that is not JSON degrades to
      `ParseFailureResult`, and a failed request becomes a plain error. */
  function AnalyzeImage(image: string, moderation: ModerationReply, generation: GenerationReply, parse: Parser): (r: Run<Result<Json, Error>>)
    ensures |r.calls| >= 1 && r.calls[0] == Moderate(image)
    ensures IsImageSafe(moderation).isSafe <==> Generate(MealAnalysisInstruction, image) in r.calls
    ensures r.value.Failure? ==> r.value.error.name in {UnsafeContentErrorName, PlainErrorName}
  {
    var verdict := IsImageSafe(moderation);
    if !verdict.isSafe then
      Run(Failure(UnsafeContentError(verdict.categories)), [Moderate(image)])
    else
      var calls := [Moderate(image), Generate(MealAnalysisInstruction, image)];
      match generation
      case GenerationThrew => Run(Failure(Error(PlainErrorName, AnalysisFailedMessage)), calls)
      case Responded(text) =>
        match parse(text)
        case Some(parsed) => Run(Success(parsed), calls)
        case None => Run(Success(ParseFailureResult), calls)
  }

  /** The image is rejected as unsafe exactly when moderation did not clear it; the
      message lists the flagged categories after a fixed prefix, and the model is not
      asked. */
  lemma UnsafeImageRejected(image: string, moderation: ModerationReply, generation: GenerationReply, parse: Parser)
    ensures var r := AnalyzeImage(image, moderation, generation, parse);
      (r.value.Failure? && r.value.error.name == UnsafeContentErrorName) <==> !IsImageSafe(moderation).isSafe
    ensures var r := AnalyzeImage(image, moderation, generation, parse);
      !IsImageSafe(moderation).isSafe ==>
        && r.value == Failure(UnsafeContentError(IsImageSafe(moderation).categories))
        && r.calls == [Moderate(image)]
  {
  }

  /** Every flagged category of the moderation answer appears in the error message. */
  lemma UnsafeMessageNamesCategories(moderation: ModerationReply, k: nat)
    requires moderation.Moderated? && |moderation.results| > 0
    requires k < |IsImageSafe(moderation).categories|
    ensures IsInfix(IsImageSafe(moderation).categories[k], UnsafeContentError(IsImageSafe(moderation).categories).message)
  {
    var cats := IsImageSafe(moderation).categories;
    JoinContainsElement(cats, ", ", k);
    InfixOfPrefix(cats[k], FlaggedContentPrefix, Join(cats, ", "));
  }

  /** Fail-closed consequence: when moderation itself fails, the image is rejected
      with the bare prefix as message, and the model is never asked. */
  lemma ModerationFailureRejects(image: string, moderation: ModerationReply, generation: GenerationReply, parse: Parser)
    requires moderation.ModerationThrew? || |moderation.results| == 0
    ensures AnalyzeImage(image, moderation, generation, parse) ==
      Run(Failure(Error(UnsafeContentErrorName, FlaggedContentPrefix)), [Moderate(image)])
  {
    assert FlaggedContentPrefix + Join([], ", ") == FlaggedContentPrefix;
  }

  /** Text that is not JSON yields the empty analysis: no items, six zero totals,
      low confidence, which is also the answer the instruction requests for a photo
      without food. */
  lemma ParseFailureIsEmptyAnalysis(image: string, moderation: ModerationReply, text: string, parse: Parser)
    requires IsImageSafe(moderation).isSafe
    requires parse(text).None?
    ensures AnalyzeImage(image, moderation, Responded(text), parse).value == Success(ToJson(EmptyAnalysis))
    ensures FromJson(ParseFailureResult) == Some(EmptyAnalysis)
    ensures ParseFailureResult == NoFoodObject
  {
    NoFoodObjectIsEmptyAnalysis();
  }

  /** A safe image yields the parsed text unchanged when it is JSON, and a failed
      generation request yields exactly the plain "Failed to analyze food image". */
  lemma SafeImageOutcomes(image: string, moderation: ModerationReply, generation: GenerationReply, parse: Parser)
    requires IsImageSafe(moderation).isSafe
    ensures var r := AnalyzeImage(image, moderation, generation, parse);
      && (generation.GenerationThrew? <==> r.value == Failure(Error(PlainErrorName, AnalysisFailedMessage)))
      && (generation.Responded? && parse(generation.outputText).Some? ==> r.value == Success(parse(generation.outputText).value))
      && r.calls == [Moderate(image), Generate(MealAnalysisInstruction, image)]
  {
  }

  // ----------------------------------------------------------- recommendations

  /** One choice of a chat answer; `None` when the message or its content is absent. */
  datatype Choice = Choice(content: Option<string>)

  /** The chat request either answers with its choices or throws. */
  datatype ChatReply = Completed(choices: seq<Choice>) | ChatThrew

  const EmptyRecommendationsText := "{\"recommendations\":[]}"
  const FallbackRecommendation := "Unable to generate personalized recommendations at this time."
  const AdditionalUserContext := "Additional user context..."

  /** The summary line of one food item of the declared shape. */
  function ItemSummary(item: FoodItem): (line: string)
    ensures StartsWith(line, item.name + ": ")
    ensures '\n' !in item.name ==> '\n' !in line
  {
    var calories := JsNumber(item.macros.calories);
    assert '\n' !in calories;
    item.name + ": " + calories + " calories..."
  }

  function ItemSummaries(items: seq<FoodItem>): (r: seq<string>)
    ensures |r| == |items|
    ensures forall i :: 0 <= i < |items| ==> r[i] == ItemSummary(items[i])
  {
    seq(|items|, i requires 0 <= i < |items| => ItemSummary(items[i]))
  }

  /** `foodItemsText` of an analysis of the declared shape: the item summaries
      joined by line breaks. */
  function FoodItemsText(items: seq<FoodItem>): string {
    Join(ItemSummaries(items), "\n")
  }

  /** `totalMacrosText` of an analysis of the declared shape. */
  function TotalMacrosText(total: Macros): (line: string)
    ensures StartsWith(line, "Total: ") && '\n' !in line
  {
    var calories := JsNumber(total.calories);
    assert '\n' !in calories;
    "Total: " + calories + " calories..."
  }

  /** The summary line of one element of the unchecked `foodItems`, as the template
      literal reads it; `None` when reading `item.name` or `item.macros.calories`
      throws. */
  function ItemLine(item: Json): (r: Option<string>)
    ensures r.Some? <==> item.JObj? && !Nullish(Property(item, "macros"))
  {
    if item.JNull? then None
    else
      var macros := Property(item, "macros");
      if Nullish(macros) then None
      else Some(TemplateText(Property(item, "name")) + ": " + TemplateText(Property(macros.value, "calories")) + " calories...")
  }

  /** `foodItems.map(...)`: every element's line, or `None` when one of them throws. */
  function ItemLines(items: seq<Json>): (r: Option<seq<string>>)
    ensures r.Some? <==> forall i :: 0 <= i < |items| ==> ItemLine(items[i]).Some?
    ensures r.Some? ==> |r.value| == |items| && forall i :: 0 <= i < |items| ==> r.value[i] == ItemLine(items[i]).value
    decreases |items|
  {
    if |items| == 0 then Some([])
    else
      var first := ItemLine(items[0]);
      var rest := ItemLines(items[1..]);
      if first.None? || rest.None? then None
      else
        assert forall i :: 1 <= i < |items| ==> items[i] == items[1..][i - 1];
        Some([first.value] + rest.value)
  }

  /** The summary code reads the analysis without throwing: `foodItems` is an array
      whose elements are objects with a `macros` that is not `null`, and
      `totalMacros` is present and not `null`. */
  predicate SummaryReadable(analysis: Json) {
    var items := Property(analysis, "foodItems");
    && items.Some? && items.value.JArr?
    && (forall i :: 0 <= i < |items.value.items| ==>
          items.value.items[i].JObj? && !Nullish(Property(items.value.items[i], "macros")))
    && !Nullish(Property(analysis, "totalMacros"))
  }

  /** `foodItemsText` and `totalMacrosText` of the analysis the request carries,
      which nothing checks; `None` when computing them throws. */
  function SummaryTexts(analysis: Json): (r: Option<(string, string)>)
    ensures r.Some? <==> SummaryReadable(analysis)
    ensures r.Some? ==> StartsWith(r.value.1, "Total: ")
  {
    var items := Property(analysis, "foodItems");
    if items.None? || !items.value.JArr? then None
    else
      var lines := ItemLines(items.value.items);
      var total := Property(analysis, "totalMacros");
      if lines.None? || Nullish(total) then None
      else Some((Join(lines.value, "\n"), "Total: " + TemplateText(Property(total.value, "calories")) + " calories..."))
  }

  /** An element of the declared item shape gives its typed summary line. */
  lemma ItemLineOfItem(item: FoodItem)
    ensures ItemLine(ItemToJson(item)) == Some(ItemSummary(item))
  {
    var f := ItemToJson(item).fields;
    LookupLast(f, 0);
    LookupLast(f, 2);
    CaloriesMember(item.macros);
  }

  lemma ItemLinesOfItems(items: seq<FoodItem>)
    ensures ItemLines(ItemsToJson(items)) == Some(ItemSummaries(items))
  {
    var js := ItemsToJson(items);
    forall i | 0 <= i < |items| ensures ItemLine(js[i]) == Some(ItemSummary(items[i])) {
      ItemLineOfItem(items[i]);
    }
    assert ItemLines(js).value == ItemSummaries(items);
  }

  /** For an analysis of the declared shape, the texts read from its JSON are the
      typed summaries: the unchecked reading agrees with the declared one. */
  lemma SummaryOfResult(a: AnalysisResult)
    ensures SummaryTexts(ToJson(a)) == Some((FoodItemsText(a.foodItems), TotalMacrosText(a.totalMacros)))
  {
    ResultMembers(a);
    ItemLinesOfItems(a.foodItems);
    CaloriesMember(a.totalMacros);
  }

  lemma ResultMembers(a: AnalysisResult)
    ensures Property(ToJson(a), "foodItems") == Some(JArr(ItemsToJson(a.foodItems)))
    ensures Property(ToJson(a), "totalMacros") == Some(MacrosToJson(a.totalMacros))
  {
    var f := ToJson(a).fields;
    assert f[0] == ("foodItems", JArr(ItemsToJson(a.foodItems)));
    assert f[1] == ("totalMacros", MacrosToJson(a.totalMacros));
    LookupLast(f, 0);
    LookupLast(f, 1);
  }

  lemma CaloriesMember(m: Macros)
    ensures TemplateText(Property(MacrosToJson(m), "calories")) == JsNumber(m.calories)
  {
    LookupLast(MacrosToJson(m).fields, 0);
  }

  /** `userContext`: a fixed line when the request's profile is truthy, empty
      otherwise. */
  function UserContext(profile: Option<Json>): (u: string)
    ensures u == "" <==> profile.None? || !Truthy(profile.value)
    ensures '\n' !in u
  {
    if profile.Some? && Truthy(profile.value) then AdditionalUserContext else ""
  }

  /** `choices[0]?.message?.content || '{"recommendations":[]}'`: an absent or empty
      content falls back to an empty recommendation object. */
  function ReplyText(choices: seq<Choice>): (text: string)
    ensures text != ""
  {
    if |choices| > 0 && choices[0].content.Some? && choices[0].content.value != "" then
      choices[0].content.value
    else
      EmptyRecommendationsText
  }

  /** The shape test on the parsed answer: a bare array is the list, an object's
      `recommendations` array is the list, anything else is the empty list. Reading a
      property of `null` throws, which is `None` here. */
  function NormalizeRecommendations(parsed: Json): (r: Option<seq<Json>>)
    ensures r.None? <==> parsed.JNull?
    ensures r.Some? && r.value != [] ==>
      parsed == JArr(r.value) || Property(parsed, "recommendations") == Some(JArr(r.value))
  {
    if parsed.JNull? then None
    else if parsed.JArr? then Some(parsed.items)
    else
      var recs := Property(parsed, "recommendations");
      if recs.Some? && recs.value.JArr? then Some(recs.value.items) else Some([])
  }

  /** `generateRecommendationsWithAI`: builds the summary prompt from the analysis it
      is handed, asks the chat model once and normalises its answer. It never throws:
      an analysis the summary code cannot read, a failed request, text that is not
      JSON or a `null` answer all yield the one fixed fallback sentence, and in the
      first case the chat model is not asked. */
  function GenerateRecommendations(analysis: Json, profile: Option<Json>, chat: ChatReply, parse: Parser): (r: Run<seq<Json>>)
    ensures r.calls == [] <==> !SummaryReadable(analysis)
    ensures !SummaryReadable(analysis) ==> r.value == [JStr(FallbackRecommendation)]
    ensures |r.calls| <= 1 && forall c :: c in r.calls ==> c.Chat? && c.prompt.RecommendationsRequest? && c.prompt.foodAnalysis == analysis
  {
    var fallback := [JStr(FallbackRecommendation)];
    var texts := SummaryTexts(analysis);
    if texts.None? then Run(fallback, [])
    else
      var prompt := RecommendationsRequest(texts.value.0, texts.value.1, analysis, UserContext(profile));
      match chat
      case ChatThrew => Run(fallback, [Chat(prompt)])
      case Completed(choices) =>
        match parse(ReplyText(choices))
        case None => Run(fallback, [Chat(prompt)])
        case Some(parsed) => Run(NormalizeRecommendations(parsed).GetOr(fallback), [Chat(prompt)])
  }

  /** For an analysis of the declared shape the one chat request carries the typed
      summaries, the analysis and the user context. */
  lemma ResultRequest(a: AnalysisResult, profile: Option<Json>, chat: ChatReply, parse: Parser)
    ensures GenerateRecommendations(ToJson(a), profile, chat, parse).calls ==
      [Chat(RecommendationsRequest(FoodItemsText(a.foodItems), TotalMacrosText(a.totalMacros), ToJson(a), UserContext(profile)))]
  {
    SummaryOfResult(a);
  }

  /** The fallback sentence is returned when the analysis cannot be read, the request
      failed, the answer was not JSON, or it parsed to `null`; otherwise the
      normalised answer is returned. */
  lemma FallbackExactlyOnFailure(analysis: Json, profile: Option<Json>, chat: ChatReply, parse: Parser)
    ensures var failed := !SummaryReadable(analysis) ||
        chat.ChatThrew? || parse(ReplyText(chat.choices)).None? || parse(ReplyText(chat.choices)) == Some(JNull);
      failed ==> GenerateRecommendations(analysis, profile, chat, parse).value == [JStr(FallbackRecommendation)]
    ensures SummaryReadable(analysis) && chat.Completed? && parse(ReplyText(chat.choices)).Some? && parse(ReplyText(chat.choices)) != Some(JNull) ==>
      GenerateRecommendations(analysis, profile, chat, parse).value == NormalizeRecommendations(parse(ReplyText(chat.choices)).value).value
  {
  }

  /** A bare array, and an object whose `recommendations` member is that array,
      give the same list, whatever else the object holds; an object without such an
      array, or any other non-null value, gives the empty list. */
  lemma RecommendationShapes(xs: seq<Json>, fields: seq<(string, Json)>, other: Json)
    ensures NormalizeRecommendations(JArr(xs)) == Some(xs)
    ensures Lookup(fields, "recommendations") == Some(JArr(xs)) ==> NormalizeRecommendations(JObj(fields)) == Some(xs)
    ensures Lookup(fields, "recommendations").None? || !Lookup(fields, "recommendations").value.JArr? ==>
      NormalizeRecommendations(JObj(fields)) == Some([])
    ensures !other.JArr? && !other.JObj? && !other.JNull? ==> NormalizeRecommendations(other) == Some([])
  {
  }

  /** With a parser that reads the default text correctly, a reply without content
      gives the empty list whenever the analysis could be read. */
  lemma MissingContentGivesEmptyList(analysis: Json, profile: Option<Json>, choices: seq<Choice>, parse: Parser)
    requires parse(EmptyRecommendationsText) == Some(JObj([("recommendations", JArr([]))]))
    requires |choices| == 0 || choices[0].content.None? || choices[0].content == Some("")
    ensures SummaryReadable(analysis) ==> GenerateRecommendations(analysis, profile, Completed(choices), parse).value == []
  {
  }

  /** Read line by line, the chat prompt for an analysis of the declared shape
      carries one summary line per food item, in order (one empty line when there
      are none), then the total line, the confidence line and the user-context line. */
  lemma RecommendationPromptLines(analysis: AnalysisResult, profile: Option<Json>)
    requires forall i :: 0 <= i < |analysis.foodItems| ==> '\n' !in analysis.foodItems[i].name
    ensures Split(RecommendationsPrompt(FoodItemsText(analysis.foodItems), TotalMacrosText(analysis.totalMacros), ToJson(analysis), UserContext(profile)), '\n') ==
      Split(RecommendationsIntro, '\n') +
      (if |analysis.foodItems| == 0 then [""] else ItemSummaries(analysis.foodItems)) +
      [TotalMacrosText(analysis.totalMacros), ConfidenceLabel + ConfidenceName(analysis.confidenceLevel), UserContext(profile)] +
      Split(RecommendationsTask, '\n')
  {
    ItemsTextLines(analysis.foodItems);
    ConfidenceLineOfResult(analysis);
    SplitWithoutSeparator(TotalMacrosText(analysis.totalMacros), '\n');
    PromptLinesAt(FoodItemsText(analysis.foodItems), TotalMacrosText(analysis.totalMacros), ToJson(analysis),
      UserContext(profile), if |analysis.foodItems| == 0 then [""] else ItemSummaries(analysis.foodItems),
      ConfidenceLabel + ConfidenceName(analysis.confidenceLevel));
  }

  /** The item summaries read back line by line; no items give one empty line. */
  lemma ItemsTextLines(items: seq<FoodItem>)
    requires forall i :: 0 <= i < |items| ==> '\n' !in items[i].name
    ensures Split(FoodItemsText(items), '\n') == if |items| == 0 then [""] else ItemSummaries(items)
  {
    var lines := ItemSummaries(items);
    if |items| > 0 {
      assert NoneContains(lines, '\n');
      SplitJoin(lines, '\n');
    }
  }

  /** The confidence of an analysis of the declared shape fills exactly one line. */
  lemma ConfidenceLineOfResult(a: AnalysisResult)
    ensures Split(ConfidenceLabel + ConfidenceText(ToJson(a)), '\n') == [ConfidenceLabel + ConfidenceName(a.confidenceLevel)]
  {
    var line := ConfidenceLabel + ConfidenceName(a.confidenceLevel);
    ConfidenceTextOfResult(a);
    assert '\n' !in line;
    SplitWithoutSeparator(line, '\n');
  }
}

=== FILE: csv.dfy ===
/** Reading comma-separated text by the rules of section 2 of RFC 4180: records end
    with a line break, fields are separated by commas, a field holding a comma, a
    double quote or a line break is enclosed in double quotes, and a double quote
    inside such a field is written twice. Line breaks are a single `\n`, as the
    application writes them. The reader is strict: a double quote or a carriage
    return in an unquoted field, or text after a closing quote, is rejected. */
module Rfc4180 {
  import opened Wrappers
  import opened Text

  predicate IsSpecial(c: char) {
    c == ',' || c == '"' || c == '\n' || c == '\r'
  }

  /** The field cannot be written as is. */
  predicate NeedsQuotes(f: string) {
    exists i | 0 <= i < |f| :: IsSpecial(f[i])
  }

  /** Every double quote written twice. */
  function DoubleQuotes(f: string): (r: string)
    ensures |r| == |f| + Count(f, '"')
    decreases |f|
  {
    if |f| == 0 then ""
    else (if f[0] == '"' then "\"\"" else [f[0]]) + DoubleQuotes(f[1..])
  }

  /** A field as RFC 4180 requires it to be written: verbatim when that is
      unambiguous, otherwise quoted with inner quotes doubled. */
  function EscapeField(f: string): (r: string)
    ensures (|r| > 0 && r[0] == '"') <==> NeedsQuotes(f)
    ensures !NeedsQuotes(f) ==> r == f
  {
    if NeedsQuotes(f) then "\"" + DoubleQuotes(f) + "\"" else f
  }

  function EscapeAll(fs: seq<string>): (r: seq<string>)
    ensures |r| == |fs|
    ensures forall i :: 0 <= i < |fs| ==> r[i] == EscapeField(fs[i])
  {
    seq(|fs|, i requires 0 <= i < |fs| => EscapeField(fs[i]))
  }

  /** One record, without its line break. */
  function Record(fields: seq<string>): string {
    Join(EscapeAll(fields), ",")
  }

  function Records(rows: seq<seq<string>>): (r: seq<string>)
    ensures |r| == |rows|
    ensures forall i :: 0 <= i < |rows| ==> r[i] == Record(rows[i])
  {
    seq(|rows|, i requires 0 <= i < |rows| => Record(rows[i]))
  }

  /** A file: every record followed by a line break. */
  function Document(rows: seq<seq<string>>): string {
    Unlines(Records(rows))
  }

  /** A record of fields that need no quotes is the fields joined by commas. */
  lemma PlainRecord(fields: seq<string>)
    requires forall i :: 0 <= i < |fields| ==> !NeedsQuotes(fields[i])
    ensures Record(fields) == Join(fields, ",")
  {
    assert EscapeAll(fields) == fields;
  }

  lemma {:induction false} NoQuotesUnchanged(f: string)
    requires '"' !in f
    ensures DoubleQuotes(f) == f
    decreases |f|
  {
    if |f| > 0 {
      assert f[0] != '"';
      assert '"' !in f[1..] by {
        forall i | 0 <= i < |f[1..]| ensures f[1..][i] != '"' {
          assert f[1..][i] == f[i + 1];
        }
      }
      NoQuotesUnchanged(f[1..]);
      assert [f[0]] + f[1..] == f;
    }
  }

  /** The longest prefix with no special character, and what follows it. */
  function ParseUnquoted(s: string): (r: (string, string))
    ensures r.0 + r.1 == s
    ensures !NeedsQuotes(r.0)
    ensures |r.1| == 0 || IsSpecial(r.1[0])
    decreases |s|
  {
    if |s| == 0 || IsSpecial(s[0]) then ("", s)
    else
      var rest := ParseUnquoted(s[1..]);
      assert [s[0]] + rest.0 + rest.1 == s;
      ([s[0]] + rest.0, rest.1)
  }

  /** The inside of a quoted field after its opening quote, accumulated in `acc`:
      two quotes stand for one, a single quote closes the field. */
  function ParseQuoted(s: string, acc: string): (r: Option<(string, string)>)
    ensures r.Some? ==> |r.value.1| < |s|
    decreases |s|
  {
    if |s| == 0 then None
    else if s[0] == '"' then
      if |s| >= 2 && s[1] == '"' then ParseQuoted(s[2..], acc + ['"']) else Some((acc, s[1..]))
    else ParseQuoted(s[1..], acc + [s[0]])
  }

  /** One field and the text after it. */
  function ParseField(s: string): (r: Option<(string, string)>)
    ensures r.Some? ==> |r.value.1| <= |s|
  {
    if |s| > 0 && s[0] == '"' then ParseQuoted(s[1..], "")
    else
      var (text, rest) := ParseUnquoted(s);
      if |rest| > 0 && (rest[0] == '"' || rest[0] == '\r') then None else Some((text, rest))
  }

  /** One record up to and including its line break, and the text after it. */
  function ParseRecord(s: string): (r: Option<(seq<string>, string)>)
    ensures r.Some? ==> |r.value.0| >= 1 && |r.value.1| < |s|
    decreases |s|
  {
    var field := ParseField(s);
    if field.None? then None
    else
      var (f, rest) := field.value;
      if |rest| == 0 then None
      else if rest[0] == '\n' then Some(([f], rest[1..]))
      else if rest[0] == ',' then
        var tail := ParseRecord(rest[1..]);
        if tail.None? then None else Some(([f] + tail.value.0, tail.value.1))
      else None
  }

  /** All records of a file. */
  function ParseDocument(s: string): (r: Option<seq<seq<string>>>)
    ensures r.Some? ==> forall i :: 0 <= i < |r.value| ==> |r.value[i]| >= 1
    decreases |s|
  {
    if |s| == 0 then Some([])
    else
      var record := ParseRecord(s);
      if record.None? then None
      else
        var more := ParseDocument(record.value.1);
        if more.None? then None else Some([record.value.0] + more.value)
  }

  lemma {:induction false} UnquotedRoundTrip(f: string, rest: string)
    requires !NeedsQuotes(f)
    requires |rest| == 0 || IsSpecial(rest[0])
    ensures ParseUnquoted(f + rest) == (f, rest)
    decreases |f|
  {
    if |f| == 0 {
      assert f + rest == rest;
    } else {
      assert !IsSpecial(f[0]);
      assert !NeedsQuotes(f[1..]) by {
        forall i | 0 <= i < |f[1..]| ensures !IsSpecial(f[1..][i]) {
          assert f[1..][i] == f[i + 1];
        }
      }
      UnquotedRoundTrip(f[1..], rest);
      assert (f + rest)[1..] == f[1..] + rest;
      assert [f[0]] + f[1..] == f;
    }
  }

  lemma {:induction false} QuotedRoundTrip(f: string, rest: string, acc: string)
    requires |rest| == 0 || rest[0] != '"'
    ensures ParseQuoted(DoubleQuotes(f) + "\"" + rest, acc) == Some((acc + f, rest))
    decreases |f|
  {
    var s := DoubleQuotes(f) + "\"" + rest;
    if |f| == 0 {
      assert s == "\"" + rest;
      assert s[1..] == rest;
      assert acc + f == acc;
    } else {
      var tail := DoubleQuotes(f[1..]) + "\"" + rest;
      assert [f[0]] + f[1..] == f;
      if f[0] == '"' {
        assert s == "\"\"" + tail;
        assert s[2..] == tail;
        QuotedRoundTrip(f[1..], rest, acc + ['"']);
        assert acc + ['"'] + f[1..] == acc + f;
      } else {
        assert s == [f[0]] + tail;
        assert s[1..] == tail;
        QuotedRoundTrip(f[1..], rest, acc + [f[0]]);
        assert acc + [f[0]] + f[1..] == acc + f;
      }
    }
  }

  /** A written field reads back as itself when a separator, a line break or the end
      of the text follows it. */
  lemma FieldRoundTrip(f: string, rest: string)
    requires |rest| == 0 || rest[0] == ',' || rest[0] == '\n'
    ensures ParseField(EscapeField(f) + rest) == Some((f, rest))
  {
    if NeedsQuotes(f) {
      QuotedFieldRoundTrip(f, rest);
    } else {
      PlainFieldRoundTrip(f, rest);
    }
  }

  lemma QuotedFieldRoundTrip(f: string, rest: string)
    requires NeedsQuotes(f)
    requires |rest| == 0 || rest[0] == ',' || rest[0] == '\n'
    ensures ParseField(EscapeField(f) + rest) == Some((f, rest))
  {
    var body := DoubleQuotes(f) + "\"" + rest;
    var s := "\"" + body;
    assert EscapeField(f) + rest == s;
    assert s[1..] == body;
    QuotedRoundTrip(f, rest, "");
    assert "" + f == f;
    assert ParseField(s) == ParseQuoted(body, "");
  }

  lemma PlainFieldRoundTrip(f: string, rest: string)
    requires !NeedsQuotes(f)
    requires |rest| == 0 || rest[0] == ',' || rest[0] == '\n'
    ensures ParseField(f + rest) == Some((f, rest))
  {
    UnquotedRoundTrip(f, rest);
    if |f| > 0 {
      assert (f + rest)[0] == f[0];
      assert !IsSpecial(f[0]);
    } else {
      assert f + rest == rest;
    }
  }

  /** A field followed by a line break ends the record. */
  lemma ParseRecordLast(s: string, f: string, rest: string)
    requires ParseField(s) == Some((f, "\n" + rest))
    ensures ParseRecord(s) == Some(([f], rest))
  {
    assert ("\n" + rest)[1..] == rest;
  }

  /** A field followed by a comma is the first of the record's fields. */
  lemma ParseRecordMore(s: string, f: string, more: string, fields: seq<string>, rest: string)
    requires ParseField(s) == Some((f, "," + more))
    requires ParseRecord(more) == Some((fields, rest))
    ensures ParseRecord(s) == Some(([f] + fields, rest))
  {
    assert ("," + more)[1..] == more;
  }

  /** A written record reads back as its fields. */
  lemma {:induction false} RecordRoundTrip(fields: seq<string>, rest: string)
    requires |fields| >= 1
    ensures ParseRecord(Record(fields) + "\n" + rest) == Some((fields, rest))
    decreases |fields|
  {
    if |fields| == 1 {
      LastFieldRoundTrip(fields, rest);
    } else {
      var s := Record(fields) + "\n" + rest;
      var more := Record(fields[1..]) + "\n" + rest;
      RecordCons(fields);
      assert s == EscapeField(fields[0]) + ("," + more);
      RecordRoundTrip(fields[1..], rest);
      NextFieldRoundTrip(s, fields[0], more, fields[1..], rest);
      assert [fields[0]] + fields[1..] == fields;
    }
  }

  lemma LastFieldRoundTrip(fields: seq<string>, rest: string)
    requires |fields| == 1
    ensures ParseRecord(Record(fields) + "\n" + rest) == Some((fields, rest))
  {
    var s := Record(fields) + "\n" + rest;
    assert Record(fields) == EscapeField(fields[0]);
    assert s == EscapeField(fields[0]) + ("\n" + rest);
    FieldRoundTrip(fields[0], "\n" + rest);
    ParseRecordLast(s, fields[0], rest);
    assert [fields[0]] == fields;
  }

  /** A written field, a comma and a record that reads back read back together. */
  lemma NextFieldRoundTrip(s: string, f: string, more: string, tail: seq<string>, rest: string)
    requires s == EscapeField(f) + ("," + more)
    requires ParseRecord(more) == Some((tail, rest))
    ensures ParseRecord(s) == Some(([f] + tail, rest))
  {
    FieldRoundTrip(f, "," + more);
    ParseRecordMore(s, f, more, tail, rest);
  }

  /** A record of two or more fields is its first field, a comma and the rest. */
  lemma RecordCons(fields: seq<string>)
    requires |fields| >= 2
    ensures Record(fields) == EscapeField(fields[0]) + "," + Record(fields[1..])
  {
    var es := EscapeAll(fields);
    assert es[1..] == EscapeAll(fields[1..]);
  }

  /** A written file reads back as its records. */
  lemma {:induction false} DocumentRoundTrip(rows: seq<seq<string>>)
    requires forall i :: 0 <= i < |rows| ==> |rows[i]| >= 1
    ensures ParseDocument(Document(rows)) == Some(rows)
    decreases |rows|
  {
    if |rows| > 0 {
      var tailRows := rows[1..];
      assert forall i :: 0 <= i < |tailRows| ==> |tailRows[i]| >= 1 by {
        forall i | 0 <= i < |tailRows| ensures |tailRows[i]| >= 1 {
          assert tailRows[i] == rows[i + 1];
        }
      }
      DocumentRoundTrip(tailRows);
      DocumentStep(rows);
    }
  }

  /** A file reads back as its records when the file of all but its first record does. */
  lemma DocumentStep(rows: seq<seq<string>>)
    requires |rows| > 0 && |rows[0]| >= 1
    requires ParseDocument(Document(rows[1..])) == Some(rows[1..])
    ensures ParseDocument(Document(rows)) == Some(rows)
  {
    var tailRows := rows[1..];
    var rest := Document(tailRows);
    DocumentCons(rows);
    RecordRoundTrip(rows[0], rest);
    ParseDocumentCons(Document(rows), rows[0], rest, tailRows);
    assert [rows[0]] + tailRows == rows;
  }

  /** A file of one or more records is its first record, a line break and the rest. */
  lemma DocumentCons(rows: seq<seq<string>>)
    requires |rows| > 0
    ensures Document(rows) == Record(rows[0]) + "\n" + Document(rows[1..])
  {
    var lines := Records(rows);
    assert lines[1..] == Records(rows[1..]);
  }

  /** A file reads as its first record followed by the records of the rest. */
  lemma ParseDocumentCons(s: string, first: seq<string>, rest: string, more: seq<seq<string>>)
    requires ParseRecord(s) == Some((first, rest)) && ParseDocument(rest) == Some(more)
    ensures ParseDocument(s) == Some([first] + more)
  {
    assert |s| > 0;
  }

  /** A file whose second record is invalid is rejected as a whole. */
  lemma RejectedAfterFirst(s: string, first: seq<string>, rest: string)
    requires ParseRecord(s) == Some((first, rest)) && |rest| > 0 && ParseRecord(rest).None?
    ensures ParseDocument(s).None?
  {
  }

  /** A record whose first line is `"a"b` is rejected: text follows a closing quote. */
  lemma TextAfterClosingQuoteRejected(x: string)
    ensures ParseRecord("\"a\"b" + x) == None
  {
    var s := "\"a\"b" + x;
    var t := "a\"b" + x;
    var u := "\"b" + x;
    assert s[0] == '"' && s[1..] == t;
    assert t[0] == 'a' && t[1..] == u;
    assert u[0] == '"' && u[1] == 'b';
    assert ParseQuoted(u, "" + ['a']) == Some(("" + ['a'], u[1..]));
    assert ParseQuoted(t, "") == ParseQuoted(u, "" + ['a']);
    assert ParseField(s) == Some(("" + ['a'], u[1..]));
    assert u[1..][0] == 'b';
  }
}

/** `generateCSV` of src/util/pdfGenerator.tsx: a header line, one line per food item
    in order, and a line of meal totals, every line ended by `\n`. Calories are
    rounded to whole numbers, the other five values to one decimal. A food name is
    put in quotes exactly when it holds a comma (`EscapeNameAsWritten`); since a name
    holding a double quote or a line break then breaks the file, the model uses the
    quoting section 2 of RFC 4180 prescribes (`GenerateCsv`) and keeps the original
    (`GenerateCsvAsWritten`) to show where the two differ. */
module CsvExport {
  import opened Wrappers
  import opened Text
  import opened Numbers
  import opened Types
  import opened Rfc4180

  const HeaderFields: seq<string> :=
    ["Food Item", "Calories (kcal)", "Protein (g)", "Fat (g)", "Carbs (g)", "Sugar (g)", "Fiber (g)"]

  /** The header line, without its line break: the column titles separated by commas. */
  const HeaderLine := Join(HeaderFields, ",")

  const TotalLabel := "Total"

  /** The six numeric fields of a row: whole calories, then protein, fat, carbs, sugar
      and fiber with one decimal. */
  function MacroFields(m: Macros): (r: seq<string>)
    ensures |r| == 6
    ensures forall i :: 0 <= i < 6 ==> IsNumeral(r[i])
  {
    [NatToString(RoundHalfUp(m.calories)), ToFixed1(m.protein), ToFixed1(m.fat),
     ToFixed1(m.carbs), ToFixed1(m.sugar), ToFixed1(m.fiber)]
  }

  /** The numeric fields read back as the rounded calories and the exact other
      values. */
  lemma MacroFieldsRoundTrip(m: Macros)
    ensures var r := MacroFields(m);
      && ParseDigits(r[0]) == RoundHalfUp(m.calories)
      && ParseFixed1(r[1]) == Some(m.protein) && ParseFixed1(r[2]) == Some(m.fat)
      && ParseFixed1(r[3]) == Some(m.carbs) && ParseFixed1(r[4]) == Some(m.sugar)
      && ParseFixed1(r[5]) == Some(m.fiber)
  {
    NatToStringRoundTrip(RoundHalfUp(m.calories));
    ToFixed1RoundTrip(m.protein);
    ToFixed1RoundTrip(m.fat);
    ToFixed1RoundTrip(m.carbs);
    ToFixed1RoundTrip(m.sugar);
    ToFixed1RoundTrip(m.fiber);
  }

  lemma NumeralNeedsNoQuotes(f: string)
    requires IsNumeral(f)
    ensures !NeedsQuotes(f)
  {
  }

  /** The fields the file holds, before any quoting: the header, one row per item
      (its name and numbers), and the total row built from `totalMacros`. */
  function CsvRows(result: AnalysisResult): (rows: seq<seq<string>>)
    ensures |rows| == |result.foodItems| + 2
    ensures forall i :: 0 <= i < |rows| ==> |rows[i]| == 7
  {
    [HeaderFields]
    + seq(|result.foodItems|, i requires 0 <= i < |result.foodItems| =>
        [result.foodItems[i].name] + MacroFields(result.foodItems[i].macros))
    + [[TotalLabel] + MacroFields(result.totalMacros)]
  }

  /** The file with every field quoted as RFC 4180 requires. */
  function GenerateCsv(result: AnalysisResult): (r: string)
    ensures ParseDocument(r) == Some(CsvRows(result))
  {
    DocumentRoundTrip(CsvRows(result));
    Document(CsvRows(result))
  }

  /** The quoting the application applies to a name: quotes around it when it holds
      a comma, nothing else. */
  function EscapeNameAsWritten(name: string): (r: string)
    ensures ',' in name ==> r == "\"" + name + "\""
    ensures ',' !in name ==> r == name
  {
    if ',' in name then "\"" + name + "\"" else name
  }

  function ItemLineAsWritten(item: FoodItem): string {
    Join([EscapeNameAsWritten(item.name)] + MacroFields(item.macros), ",")
  }

  function TotalLine(total: Macros): string {
    Join([TotalLabel] + MacroFields(total), ",")
  }

  function CsvLinesAsWritten(result: AnalysisResult): (lines: seq<string>)
    ensures |lines| == |result.foodItems| + 2
  {
    [HeaderLine]
    + seq(|result.foodItems|, i requires 0 <= i < |result.foodItems| => ItemLineAsWritten(result.foodItems[i]))
    + [TotalLine(result.totalMacros)]
  }

  /** The file exactly as the application builds it. */
  function GenerateCsvAsWritten(result: AnalysisResult): (r: string)
    ensures StartsWith(r, HeaderLine + "\n")
    ensures EndsWith(r, TotalLine(result.totalMacros) + "\n")
  {
    var lines := CsvLinesAsWritten(result);
    UnlinesStartsWith(lines);
    UnlinesEndsWith(lines);
    Unlines(lines)
  }

  /** The header is the same with both quotings: no header field needs quotes. */
  lemma HeaderRecord()
    ensures Record(HeaderFields) == HeaderLine
  {
    var h := HeaderFields;
    assert !NeedsQuotes(h[0]) && !NeedsQuotes(h[1]) && !NeedsQuotes(h[2]) && !NeedsQuotes(h[3]);
    assert !NeedsQuotes(h[4]) && !NeedsQuotes(h[5]) && !NeedsQuotes(h[6]);
    PlainRecord(h);
  }

  /** A row's quoted form differs from the application's only in how the name is
      quoted: numbers never need quotes. */
  lemma RowRecord(lead: string, m: Macros)
    ensures Record([lead] + MacroFields(m)) == Join([EscapeField(lead)] + MacroFields(m), ",")
  {
    var fs := [lead] + MacroFields(m);
    var es := EscapeAll(fs);
    forall i | 1 <= i < 7 ensures es[i] == fs[i] {
      NumeralNeedsNoQuotes(fs[i]);
    }
    assert es == [EscapeField(lead)] + MacroFields(m);
  }

  /** For a name without double quote or line break, quoting on a comma is exactly
      the quoting RFC 4180 asks for. */
  lemma NameQuoting(name: string)
    requires '"' !in name && '\n' !in name && '\r' !in name
    ensures EscapeNameAsWritten(name) == EscapeField(name)
  {
    if NeedsQuotes(name) {
      var i :| 0 <= i < |name| && IsSpecial(name[i]);
      assert name[i] == ',';
      assert DoubleQuotes(name) == name by {
        NoQuotesUnchanged(name);
      }
    }
  }

  lemma ItemLineAgrees(item: FoodItem)
    requires '"' !in item.name && '\n' !in item.name && '\r' !in item.name
    ensures Record([item.name] + MacroFields(item.macros)) == ItemLineAsWritten(item)
  {
    RowRecord(item.name, item.macros);
    NameQuoting(item.name);
  }

  lemma LineAgrees(result: AnalysisResult, k: nat)
    requires k < |result.foodItems|
    requires '"' !in result.foodItems[k].name && '\n' !in result.foodItems[k].name && '\r' !in result.foodItems[k].name
    ensures Records(CsvRows(result))[k + 1] == CsvLinesAsWritten(result)[k + 1]
  {
    var item := result.foodItems[k];
    assert CsvRows(result)[k + 1] == [item.name] + MacroFields(item.macros);
    ItemLineAgrees(item);
  }

  lemma TotalLineAgrees(total: Macros)
    ensures Record([TotalLabel] + MacroFields(total)) == TotalLine(total)
  {
    TotalLabelIsPlain();
    PlainRowRecord(TotalLabel, total);
  }

  lemma TotalLabelIsPlain()
    ensures !NeedsQuotes(TotalLabel)
  {
  }

  /** A row whose leading field needs no quotes is written as it is. */
  lemma PlainRowRecord(lead: string, m: Macros)
    requires !NeedsQuotes(lead)
    ensures Record([lead] + MacroFields(m)) == Join([lead] + MacroFields(m), ",")
  {
    RowRecord(lead, m);
  }

  /** The application's file is the RFC 4180 file for every meal whose food names hold
      no double quote, carriage return or line break. */
  lemma AsWrittenAgreesWithoutQuotes(result: AnalysisResult)
    requires forall i :: 0 <= i < |result.foodItems| ==>
      '"' !in result.foodItems[i].name && '\n' !in result.foodItems[i].name && '\r' !in result.foodItems[i].name
    ensures GenerateCsvAsWritten(result) == GenerateCsv(result)
  {
    RecordsAreLinesAsWritten(result);
  }

  /** Without quotes and line breaks in names, every RFC 4180 record is the line the
      application writes. */
  lemma RecordsAreLinesAsWritten(result: AnalysisResult)
    requires forall i :: 0 <= i < |result.foodItems| ==>
      '"' !in result.foodItems[i].name && '\n' !in result.foodItems[i].name && '\r' !in result.foodItems[i].name
    ensures Records(CsvRows(result)) == CsvLinesAsWritten(result)
  {
    var records := Records(CsvRows(result));
    var lines := CsvLinesAsWritten(result);
    forall i | 0 <= i < |records| ensures records[i] == lines[i] {
      LineAgreesAt(result, i);
    }
  }

  lemma LineAgreesAt(result: AnalysisResult, i: nat)
    requires i < |result.foodItems| + 2
    requires 0 < i <= |result.foodItems| ==>
      var name := result.foodItems[i - 1].name;
      '"' !in name && '\n' !in name && '\r' !in name
    ensures Records(CsvRows(result))[i] == CsvLinesAsWritten(result)[i]
  {
    if i == 0 {
      HeaderLineAgrees(result);
    } else if i <= |result.foodItems| {
      LineAgrees(result, i - 1);
    } else {
      LastLineAgrees(result);
    }
  }

  lemma HeaderLineAgrees(result: AnalysisResult)
    ensures Records(CsvRows(result))[0] == CsvLinesAsWritten(result)[0]
  {
    assert CsvRows(result)[0] == HeaderFields;
    HeaderRecord();
  }

  lemma LastLineAgrees(result: AnalysisResult)
    ensures var n := |result.foodItems| + 1;
      Records(CsvRows(result))[n] == CsvLinesAsWritten(result)[n]
  {
    assert CsvRows(result)[|result.foodItems| + 1] == [TotalLabel] + MacroFields(result.totalMacros);
    TotalLineAgrees(result.totalMacros);
  }

  /** The RFC 4180 file reads back as the header, each item's name and numbers in
      order, and the total row: every value survives, calories rounded. */
  lemma CsvReadsBack(result: AnalysisResult)
    ensures var parsed := ParseDocument(GenerateCsv(result));
      var n := |result.foodItems|;
      && parsed.Some? && |parsed.value| == n + 2
      && parsed.value[0] == HeaderFields
      && (forall k :: 0 <= k < n ==>
            parsed.value[k + 1][0] == result.foodItems[k].name &&
            parsed.value[k + 1][1..] == MacroFields(result.foodItems[k].macros))
      && parsed.value[n + 1] == [TotalLabel] + MacroFields(result.totalMacros)
  {
    var rows := CsvRows(result);
    DocumentRoundTrip(rows);
    assert ParseDocument(GenerateCsv(result)) == Some(rows);
    forall k | 0 <= k < |result.foodItems|
      ensures rows[k + 1][0] == result.foodItems[k].name
      ensures rows[k + 1][1..] == MacroFields(result.foodItems[k].macros)
    {
      CsvRowAt(result, k);
    }
  }

  lemma CsvRowAt(result: AnalysisResult, k: nat)
    requires k < |result.foodItems|
    ensures CsvRows(result)[k + 1] == [result.foodItems[k].name] + MacroFields(result.foodItems[k].macros)
  {
  }

  /** Line structure of the application's file when no name holds a line break: it
      splits into the header, one line per item in order, the total line, and the
      empty piece after the final line break, so it has `|foodItems| + 2` lines. */
  lemma AsWrittenLines(result: AnalysisResult)
    requires forall i :: 0 <= i < |result.foodItems| ==> '\n' !in result.foodItems[i].name
    ensures var csv := GenerateCsvAsWritten(result);
      && Split(csv, '\n') == CsvLinesAsWritten(result) + [""]
      && Count(csv, '\n') == |result.foodItems| + 2
      && StartsWith(csv, HeaderLine + "\n")
  {
    var lines := CsvLinesAsWritten(result);
    forall i | 0 <= i < |lines| ensures '\n' !in lines[i] {
      LineAvoidsNewline(result, i);
    }
    SplitUnlines(lines);
    UnlinesCount(lines);
    UnlinesStartsWith(lines);
  }

  lemma LineAvoidsNewline(result: AnalysisResult, i: nat)
    requires i < |result.foodItems| + 2
    requires 0 < i <= |result.foodItems| ==> '\n' !in result.foodItems[i - 1].name
    ensures '\n' !in CsvLinesAsWritten(result)[i]
  {
    if i == 0 {
      HeaderLineAvoidsNewline(result);
    } else if i <= |result.foodItems| {
      ItemLineAvoidsNewline(result, i - 1);
    } else {
      TotalLineAvoidsNewline(result);
    }
  }

  lemma HeaderLineAvoidsNewline(result: AnalysisResult)
    ensures '\n' !in CsvLinesAsWritten(result)[0]
  {
    assert CsvLinesAsWritten(result)[0] == HeaderLine;
    HeaderAvoidsNewline();
  }

  lemma ItemLineAvoidsNewline(result: AnalysisResult, k: nat)
    requires k < |result.foodItems| && '\n' !in result.foodItems[k].name
    ensures '\n' !in CsvLinesAsWritten(result)[k + 1]
  {
    var item := result.foodItems[k];
    assert CsvLinesAsWritten(result)[k + 1] == ItemLineAsWritten(item);
    EscapedNameAvoidsNewline(item.name);
    RowAvoidsNewline(EscapeNameAsWritten(item.name), item.macros);
  }

  lemma EscapedNameAvoidsNewline(name: string)
    requires '\n' !in name
    ensures '\n' !in EscapeNameAsWritten(name)
  {
    if ',' in name {
      assert EscapeNameAsWritten(name) == "\"" + name + "\"";
      assert forall c :: c in "\"" + name + "\"" ==> c == '"' || c in name;
    }
  }

  lemma TotalLineAvoidsNewline(result: AnalysisResult)
    ensures '\n' !in CsvLinesAsWritten(result)[|result.foodItems| + 1]
  {
    assert CsvLinesAsWritten(result)[|result.foodItems| + 1] == TotalLine(result.totalMacros);
    RowAvoidsNewline(TotalLabel, result.totalMacros);
  }

  lemma HeaderAvoidsNewline()
    ensures '\n' !in HeaderLine
  {
    var h := HeaderFields;
    assert !NeedsQuotes(h[0]) && !NeedsQuotes(h[1]) && !NeedsQuotes(h[2]) && !NeedsQuotes(h[3]);
    assert !NeedsQuotes(h[4]) && !NeedsQuotes(h[5]) && !NeedsQuotes(h[6]);
    JoinAvoids(HeaderFields, ",", '\n');
  }

  lemma RowAvoidsNewline(lead: string, m: Macros)
    requires '\n' !in lead
    ensures '\n' !in Join([lead] + MacroFields(m), ",")
  {
    var fs := [lead] + MacroFields(m);
    forall j | 0 <= j < |fs| ensures '\n' !in fs[j] {
      if j > 0 {
        assert IsNumeral(fs[j]);
      }
    }
    JoinAvoids(fs, ",", '\n');
  }

  /** Each of the application's item lines is the name as it quotes it, then the six
      numbers, separated by commas; the last line is the totals, labelled `Total`. */
  lemma AsWrittenRowFields(result: AnalysisResult, k: nat)
    requires k < |result.foodItems|
    requires ',' !in result.foodItems[k].name
    ensures Split(CsvLinesAsWritten(result)[k + 1], ',') ==
      [result.foodItems[k].name] + MacroFields(result.foodItems[k].macros)
    ensures Split(CsvLinesAsWritten(result)[|result.foodItems| + 1], ',') ==
      [TotalLabel] + MacroFields(result.totalMacros)
  {
    var item := result.foodItems[k];
    var fs := [item.name] + MacroFields(item.macros);
    forall j | 0 <= j < |fs| ensures ',' !in fs[j] {
      if j > 0 {
        assert IsNumeral(fs[j]);
      }
    }
    SplitJoin(fs, ',');
    var ts := [TotalLabel] + MacroFields(result.totalMacros);
    forall j | 0 <= j < |ts| ensures ',' !in ts[j] {
      if j > 0 {
        assert IsNumeral(ts[j]);
      }
    }
    SplitJoin(ts, ',');
  }

  /** A meal with one item named `a"b,c`, all values zero. */
  const QuotedNameItem := FoodItem("a\"b,c", ZeroMacros, Portion("", 0, 0))
  const QuotedNameMeal := AnalysisResult([QuotedNameItem], ZeroMacros, Low)

  /** The application writes that name as `"a"b,c"`, which no RFC 4180 reader
      accepts: the quote before `b` closes the field and text follows it. The
      corrected file reads back. */
  lemma QuotedNameBreaksFile()
    ensures ParseDocument(GenerateCsvAsWritten(QuotedNameMeal)) == None
    ensures ParseDocument(GenerateCsv(QuotedNameMeal)).Some?
  {
    assert QuotedNameItem.name == "a\"b" + ",c";
    FirstNameBreaksFile(QuotedNameMeal, ",c");
    CsvReadsBack(QuotedNameMeal);
  }

  /** More generally, no meal whose first item is named `a"b` followed by text with
      a comma can be read back from the file as written. */
  lemma FirstNameBreaksFile(result: AnalysisResult, tail: string)
    requires |result.foodItems| >= 1 && result.foodItems[0].name == "a\"b" + tail && ',' in tail
    ensures ParseDocument(GenerateCsvAsWritten(result)) == None
  {
    var lines := CsvLinesAsWritten(result);
    AsWrittenHeaderRecord(result);
    assert lines[1] == ItemLineAsWritten(result.foodItems[0]);
    QuotedItemLineRejected(result.foodItems[0], tail, "\n" + Unlines(lines[2..]));
    SecondLineRejected(lines, HeaderFields);
  }

  /** A text whose first line reads as a record but whose second line does not is
      not a valid document. */
  lemma SecondLineRejected(lines: seq<string>, first: seq<string>)
    requires |lines| >= 2
    requires ParseRecord(Unlines(lines)) == Some((first, Unlines(lines[1..])))
    requires ParseRecord(lines[1] + ("\n" + Unlines(lines[2..]))) == None
    ensures ParseDocument(Unlines(lines)) == None
  {
    UnlinesCons(lines[1..]);
    assert lines[1..][1..] == lines[2..];
    RejectedAfterFirst(Unlines(lines), first, Unlines(lines[1..]));
  }

  /** The application's file starts with the header record. */
  lemma AsWrittenHeaderRecord(result: AnalysisResult)
    ensures ParseRecord(GenerateCsvAsWritten(result)) == Some((HeaderFields, Unlines(CsvLinesAsWritten(result)[1..])))
  {
    var lines := CsvLinesAsWritten(result);
    var rest := Unlines(lines[1..]);
    assert lines[0] == HeaderLine;
    assert GenerateCsvAsWritten(result) == HeaderLine + "\n" + rest;
    HeaderRecord();
    RecordRoundTrip(HeaderFields, rest);
  }

  /** An item line whose name is `a"b` followed by text with a comma is not a valid
      record, whatever follows it. */
  lemma QuotedItemLineRejected(item: FoodItem, tail: string, x: string)
    requires item.name == "a\"b" + tail && ',' in tail
    ensures ParseRecord(ItemLineAsWritten(item) + x) == None
  {
    var numbers := Join(MacroFields(item.macros), ",");
    var quoted := EscapeNameAsWritten(item.name);
    assert quoted == "\"" + item.name + "\"";
    JoinCons(quoted, MacroFields(item.macros), ",");
    assert ItemLineAsWritten(item) == quoted + "," + numbers;
    assert ItemLineAsWritten(item) + x == "\"a\"b" + (tail + "\"" + "," + numbers + x);
    TextAfterClosingQuoteRejected(tail + "\"" + "," + numbers + x);
  }
}

/** `getConfidenceStyle` of src/util/pdfGenerator.tsx: the badge style for a
    confidence string, the base badge overlaid with a colour pair for each of the
    three levels. */
module ConfidenceBadge {
  import opened Wrappers
  import opened Types

  datatype Style = Style(
    padding: string,
    borderRadius: nat,
    fontSize: nat,
    marginBottom: nat,
    alignSelf: string,
    backgroundColor: Option<string>,
    color: Option<string>)

  const BaseBadge := Style("4px 12px", 15, 12, 20, "center", None, None)

  /** The colour pair (background, text) of a level. */
  function LevelColours(c: Confidence): (string, string) {
    match c
    case High => ("#dcfce7", "#166534")
    case Medium => ("#fef9c3", "#854d0e")
    case Low => ("#fee2e2", "#b91c1c")
  }

  /** Style for a confidence string: a coloured badge for `High`, `Medium` and `Low`,
      the plain base badge for anything else. */
  function ConfidenceStyle(level: string): (r: Style)
    ensures r.backgroundColor.Some? <==> ParseConfidence(level).Some?
    ensures r.color.Some? <==> ParseConfidence(level).Some?
    ensures r.(backgroundColor := None, color := None) == BaseBadge
  {
    match ParseConfidence(level)
    case Some(c) => BaseBadge.(backgroundColor := Some(LevelColours(c).0), color := Some(LevelColours(c).1))
    case None => BaseBadge
  }

  /** The three levels are told apart by colour alone, and an unknown level gets the
      base badge. */
  lemma StylesDistinguishLevels(a: Confidence, b: Confidence, other: string)
    requires other != "High" && other != "Medium" && other != "Low"
    ensures ConfidenceStyle(ConfidenceName(a)) == ConfidenceStyle(ConfidenceName(b)) <==> a == b
    ensures ConfidenceStyle(ConfidenceName(a)).backgroundColor != ConfidenceStyle(ConfidenceName(b)).backgroundColor <==> a != b
    ensures ConfidenceStyle(other) == BaseBadge
  {
    ConfidenceRoundTrip(a);
    ConfidenceRoundTrip(b);
  }
}

=== FILE: js_values.dfy ===
/** How the application's JavaScript treats a parsed JSON value it has not checked:
    its truthiness (`if (!x)`, `x ? … : …`, `x && …`), reading a property (`x.key`,
    which throws on `null` and `undefined`), and the text a template literal
    (`${x}`) produces for it. `undefined` is `None`. */
module JsValues {
  import opened Wrappers
  import opened Text
  import opened Numbers
  import opened Json

  /** `null`, `false`, `0` and the empty string are falsy; every other value,
      including every array and object, is truthy. */
  predicate Truthy(v: Json) {
    match v
    case JNull => false
    case JBool(b) => b
    case JNum(t) => t != 0
    case JStr(s) => s != ""
    case _ => true
  }

  /** A value whose properties cannot be read: `undefined` or `null`. */
  predicate Nullish(v: Option<Json>) {
    v.None? || v.value.JNull?
  }

  /** `v.key` for a value that is not `null`: the object's member of that name (the
      last one, as `JSON.parse` keeps it), and `undefined` for any other value,
      since no key the application reads is a property of a string, number,
      boolean or array. */
  function Property(v: Json, key: string): (r: Option<Json>)
    ensures r.Some? ==> v.JObj?
  {
    if v.JObj? then Lookup(v.fields, key) else None
  }

  /** `${v}`: `undefined` and `null` by name, booleans and numbers as `String`
      writes them, a string as itself, an array as its elements' texts joined by
      commas (a `null` element gives the empty text), an object as
      `[object Object]`. */
  function TemplateText(v: Option<Json>): string {
    if v.None? then "undefined" else ValueText(v.value)
  }

  function ValueText(v: Json): string
    decreases v
  {
    match v
    case JNull => "null"
    case JBool(b) => if b then "true" else "false"
    case JNum(t) => if t >= 0 then JsNumber(t) else "-" + JsNumber(-t)
    case JStr(s) => s
    case JArr(items) =>
      Join(seq(|items|, i requires 0 <= i < |items| => if items[i].JNull? then "" else ValueText(items[i])), ",")
    case JObj(_) => "[object Object]"
  }

  /** A string is interpolated verbatim and a non-negative number as `String`
      writes it, so both read back. */
  lemma TemplateTextOfScalars(s: string, t: nat)
    ensures TemplateText(Some(JStr(s))) == s
    ensures ParseJsNumber(TemplateText(Some(JNum(t)))) == Some(t)
  {
    JsNumberRoundTrip(t);
  }
}

=== FILE: json.dfy ===
/** JSON values as `JSON.parse` produces them and `JSON.stringify` consumes them.
    Numbers are kept at the application's precision, in tenths. Object members keep
    their order; when a key repeats, `JSON.parse` keeps the last value, and so does
    `Lookup`. */
module Json {
  import opened Wrappers

  datatype Json =
    | JNull
    | JBool(b: bool)
    | JNum(tenths: int)
    | JStr(s: string)
    | JArr(items: seq<Json>)
    | JObj(fields: seq<(string, Json)>)

  /** `obj[key]` on a parsed object: the value of the last member named `key`. */
  function Lookup(fields: seq<(string, Json)>, key: string): Option<Json>
    decreases |fields|
  {
    if |fields| == 0 then None
    else if fields[|fields| - 1].0 == key then Some(fields[|fields| - 1].1)
    else
      Lookup(fields[..|fields| - 1], key)
  }

  /** `Lookup` finds a key exactly when some member has it, and then returns the
      value of the last such member. */
  lemma {:induction false} LookupSpec(fields: seq<(string, Json)>, key: string)
    ensures Lookup(fields, key).Some? <==> exists i :: 0 <= i < |fields| && fields[i].0 == key
    ensures Lookup(fields, key).Some? ==>
      exists i :: 0 <= i < |fields| && fields[i] == (key, Lookup(fields, key).value) &&
        forall j :: i < j < |fields| ==> fields[j].0 != key
    decreases |fields|
  {
    if |fields| > 0 && fields[|fields| - 1].0 != key {
      var init := fields[..|fields| - 1];
      LookupSpec(init, key);
      assert forall i :: 0 <= i < |init| ==> init[i] == fields[i];
    }
  }

  /** The member at `i` is the one `Lookup` finds when no later member has its key. */
  lemma LookupLast(fields: seq<(string, Json)>, i: nat)
    requires i < |fields|
    requires forall j :: i < j < |fields| ==> fields[j].0 != fields[i].0
    ensures Lookup(fields, fields[i].0) == Some(fields[i].1)
  {
    LookupSpec(fields, fields[i].0);
  }

  /** The `{ message, ok: false }` body every failing endpoint answers with. */
  function ErrorBody(message: string): Json {
    JObj([("message", JStr(message)), ("ok", JBool(false))])
  }
}

=== FILE: legacy_service.dfy ===
/** The older browser-side analysis of src/services/openai.ts: it sends the image to
    the model with no moderation step, works on a five-value macro record (no fiber)
    and items without portions, degrades text that is not JSON to an empty low-confidence
    result, and turns every failure into one error message. It also carries fixed
    sample data for development. */
module LegacyService {
  import opened Wrappers
  import opened Json
  import opened Types
  import opened Prompts
  import opened ApiService

  /** Calories, protein, fat, carbs and sugar, in tenths. */
  datatype LegacyMacros = LegacyMacros(calories: nat, protein: nat, fat: nat, carbs: nat, sugar: nat)

  datatype LegacyItem = LegacyItem(name: string, macros: LegacyMacros)

  datatype LegacyResult = LegacyResult(foodItems: seq<LegacyItem>, totalMacros: LegacyMacros, confidenceLevel: Confidence)

  const LegacyZeroMacros := LegacyMacros(0, 0, 0, 0, 0)

  function LegacyMacrosToJson(m: LegacyMacros): Json {
    JObj([
      ("calories", JNum(m.calories)),
      ("protein", JNum(m.protein)),
      ("fat", JNum(m.fat)),
      ("carbs", JNum(m.carbs)),
      ("sugar", JNum(m.sugar))])
  }

  function LegacyItemToJson(item: LegacyItem): Json {
    JObj([("name", JStr(item.name)), ("macros", LegacyMacrosToJson(item.macros))])
  }

  function LegacyItemsToJson(items: seq<LegacyItem>): (r: seq<Json>)
    ensures |r| == |items|
    ensures forall i :: 0 <= i < |items| ==> r[i] == LegacyItemToJson(items[i])
  {
    seq(|items|, i requires 0 <= i < |items| => LegacyItemToJson(items[i]))
  }

  function LegacyToJson(r: LegacyResult): Json {
    JObj([
      ("foodItems", JArr(LegacyItemsToJson(r.foodItems))),
      ("totalMacros", LegacyMacrosToJson(r.totalMacros)),
      ("confidenceLevel", JStr(ConfidenceName(r.confidenceLevel)))])
  }

  /** The result returned when the model's text is not JSON. */
  const LegacyParseFailureResult := JObj([
    ("foodItems", JArr([])),
    ("totalMacros", JObj([
      ("calories", JNum(0)), ("protein", JNum(0)), ("fat", JNum(0)), ("carbs", JNum(0)), ("sugar", JNum(0))])),
    ("confidenceLevel", JStr("Low"))])

  /** Reading the image file as a data URL either succeeds or fails. */
  datatype EncodeOutcome = Encoded(dataUrl: string) | EncodeFailed

  /** `getAnalysis`: one request to the model; its text is returned as parsed, text
      that is not JSON degrades to the empty result, and a failed request becomes a
      plain error with a fixed message. */
  function GetAnalysis(image: string, generation: GenerationReply, parse: Parser): (r: Run<Result<Json, Error>>)
    ensures r.calls == [Generate(LegacyMealInstruction, image)]
    ensures r.value.Failure? <==> generation.GenerationThrew?
    ensures r.value.Failure? ==> r.value.error == Error(PlainErrorName, AnalysisFailedMessage)
  {
    match generation
    case GenerationThrew => Run(Failure(Error(PlainErrorName, AnalysisFailedMessage)), [Generate(LegacyMealInstruction, image)])
    case Responded(text) =>
      match parse(text)
      case Some(parsed) => Run(Success(parsed), [Generate(LegacyMealInstruction, image)])
      case None => Run(Success(LegacyParseFailureResult), [Generate(LegacyMealInstruction, image)])
  }

  /** `analyzeFoodImage`: a file that cannot be read fails with the same message as a
      failed request, and the model is not asked; the rejection of `getAnalysis`
      passes through with its own, identical, message. */
  function AnalyzeFoodImage(encoding: EncodeOutcome, generation: GenerationReply, parse: Parser): (r: Run<Result<Json, Error>>)
    ensures r.value.Failure? <==> encoding.EncodeFailed? || generation.GenerationThrew?
    ensures r.value.Failure? ==> r.value.error == Error(PlainErrorName, AnalysisFailedMessage)
    ensures r.calls == [] <==> encoding.EncodeFailed?
  {
    match encoding
    case EncodeFailed => Run(Failure(Error(PlainErrorName, AnalysisFailedMessage)), [])
    case Encoded(dataUrl) => GetAnalysis(dataUrl, generation, parse)
  }

  /** The fallback is the empty low-confidence result in the five-value shape. */
  lemma LegacyFallbackIsEmpty(image: string, text: string, parse: Parser)
    requires parse(text).None?
    ensures GetAnalysis(image, Responded(text), parse).value == Success(LegacyToJson(LegacyResult([], LegacyZeroMacros, Low)))
    ensures LegacyZeroMacros == WithoutFiber(ZeroMacros)
  {
    assert LegacyItemsToJson([]) == [];
  }

  /** The members of an object other than `key`, in order. */
  function WithoutKey(fields: seq<(string, Json)>, key: string): (r: seq<(string, Json)>)
    ensures |r| <= |fields|
    ensures forall i :: 0 <= i < |r| ==> r[i].0 != key
    decreases |fields|
  {
    if |fields| == 0 then []
    else if fields[0].0 == key then WithoutKey(fields[1..], key)
    else [fields[0]] + WithoutKey(fields[1..], key)
  }

  /** For an image moderation clears, the server proxy answers as this older client
      did: the same error when the request fails, the same value when the text is
      JSON. */
  lemma ProxyExtendsLegacy(image: string, moderation: ModerationReply, generation: GenerationReply, parse: Parser)
    requires IsImageSafe(moderation).isSafe
    ensures var proxy := AnalyzeImage(image, moderation, generation, parse).value;
      var legacy := GetAnalysis(image, generation, parse).value;
      && (proxy.Failure? <==> legacy.Failure?)
      && (proxy.Failure? ==> proxy.error == legacy.error)
      && (generation.Responded? && parse(generation.outputText).Some? ==> proxy == legacy)
  {
  }

  /** The five-value record drops `fiber`: its JSON is the six-value record's JSON
      without the `fiber` member, so the proxy's fallback (`ToJson(EmptyAnalysis)`)
      differs from this one only by `fiber` in its totals. */
  function WithoutFiber(m: Macros): (r: LegacyMacros)
    ensures WithoutKey(MacrosToJson(m).fields, "fiber") == LegacyMacrosToJson(r).fields
  {
    var f := MacrosToJson(m).fields;
    assert f[5..][1..] == [];
    assert WithoutKey(f[5..], "fiber") == [];
    assert f[4..][1..] == f[5..];
    assert WithoutKey(f[4..], "fiber") == [f[4]];
    assert f[3..][1..] == f[4..];
    assert WithoutKey(f[3..], "fiber") == [f[3], f[4]];
    assert f[2..][1..] == f[3..];
    assert WithoutKey(f[2..], "fiber") == [f[2], f[3], f[4]];
    assert f[1..][1..] == f[2..];
    assert WithoutKey(f[1..], "fiber") == [f[1], f[2], f[3], f[4]];
    LegacyMacros(m.calories, m.protein, m.fat, m.carbs, m.sugar)
  }

  /** The sum of the items' macro values, value by value. */
  function SumMacros(items: seq<LegacyItem>): (total: LegacyMacros)
    ensures |items| == 0 ==> total == LegacyZeroMacros
    decreases |items|
  {
    if |items| == 0 then LegacyZeroMacros
    else
      var rest := SumMacros(items[1..]);
      var m := items[0].macros;
      LegacyMacros(m.calories + rest.calories, m.protein + rest.protein, m.fat + rest.fat,
                   m.carbs + rest.carbs, m.sugar + rest.sugar)
  }

  /** `getMockAnalysis`. */
  const MockAnalysis := LegacyResult([
    LegacyItem("Grilled Chicken Breast", LegacyMacros(1650, 310, 36, 0, 0)),
    LegacyItem("Brown Rice", LegacyMacros(2150, 50, 18, 450, 0)),
    LegacyItem("Steamed Broccoli", LegacyMacros(550, 37, 6, 110, 20)),
    LegacyItem("Olive Oil (1 tbsp)", LegacyMacros(1190, 0, 135, 0, 0))],
    LegacyMacros(5540, 397, 195, 560, 20),
    High)

  /** The sample's totals are exactly the sums of its four items, and it is a
      high-confidence result. */
  lemma MockTotalsAreSums()
    ensures |MockAnalysis.foodItems| == 4
    ensures MockAnalysis.totalMacros == SumMacros(MockAnalysis.foodItems)
    ensures MockAnalysis.confidenceLevel == High
  {
    var items := MockAnalysis.foodItems;
    assert items[3..][1..] == [];
    assert items[2..][1..] == items[3..];
    assert items[1..][1..] == items[2..];
    assert SumMacros(items[3..]) == items[3].macros;
    assert SumMacros(items[2..]) == LegacyMacros(1740, 37, 141, 110, 20);
    assert SumMacros(items[1..]) == LegacyMacros(3890, 87, 159, 560, 20);
  }
}

=== FILE: numbers.dfy ===
/** Decimal rendering of the application's quantities. Every nutrient value is a
    non-negative number with at most one decimal, so it is represented exactly as a
    natural number of tenths (`36` stands for 3.6). The JavaScript operations used on
    those numbers become integer arithmetic:
    - `Math.round(x)`                      -> `RoundHalfUp`
    - `(Math.round(x * 10) / 10).toFixed(1)` -> `ToFixed1`
    - `${x}` (Number to string)              -> `JsNumber`
    Each rendering has a reader that recovers the value from the text. */
module Numbers {
  import opened Wrappers

  predicate IsDigit(c: char) {
    '0' <= c <= '9'
  }

  predicate AllDigits(s: string) {
    forall i :: 0 <= i < |s| ==> IsDigit(s[i])
  }

  /** Digits and decimal points only: no separator, quote or line break can occur. */
  predicate IsNumeral(s: string) {
    forall i :: 0 <= i < |s| ==> IsDigit(s[i]) || s[i] == '.'
  }

  function DigitChar(d: nat): (c: char)
    requires d < 10
    ensures IsDigit(c)
  {
    (48 + d) as char
  }

  function DigitValue(c: char): (d: nat)
    requires IsDigit(c)
    ensures d < 10
  {
    (c as int) - 48
  }

  /** Decimal digits of `n`, most significant first, with no leading zero. */
  function NatToString(n: nat): (r: string)
    ensures |r| >= 1 && AllDigits(r)
    ensures |r| > 1 ==> r[0] != '0'
    decreases n
  {
    if n < 10 then [DigitChar(n)] else NatToString(n / 10) + [DigitChar(n % 10)]
  }

  /** The value of a string of decimal digits (0 for the empty string). */
  function ParseDigits(s: string): nat
    requires AllDigits(s)
    decreases |s|
  {
    if |s| == 0 then 0 else ParseDigits(s[..|s| - 1]) * 10 + DigitValue(s[|s| - 1])
  }

  /** Reading the decimal digits back gives the number. */
  lemma {:induction false} NatToStringRoundTrip(n: nat)
    ensures ParseDigits(NatToString(n)) == n
    decreases n
  {
    if n >= 10 {
      var s := NatToString(n);
      var prefix := NatToString(n / 10);
      assert s == prefix + [DigitChar(n % 10)];
      assert s[..|s| - 1] == prefix;
      NatToStringRoundTrip(n / 10);
    }
  }

  /** Distinct numbers have distinct renderings. */
  lemma NatToStringInjective(a: nat, b: nat)
    requires NatToString(a) == NatToString(b)
    ensures a == b
  {
    NatToStringRoundTrip(a);
    NatToStringRoundTrip(b);
  }

  /** `Math.round(t / 10)`: the nearest integer to `t` tenths, halves rounded up. */
  function RoundHalfUp(t: nat): (r: nat)
    ensures 10 * r <= t + 5 < 10 * r + 10
  {
    (t + 5) / 10
  }

  /** `(Math.round(x * 10) / 10).toFixed(1)` for `x` = `t` tenths: the integer part,
      a point, and exactly one fractional digit. */
  function ToFixed1(t: nat): (r: string)
    ensures |r| >= 3 && r[|r| - 2] == '.' && IsDigit(r[|r| - 1])
    ensures AllDigits(r[..|r| - 2])
    ensures IsNumeral(r)
  {
    var r := NatToString(t / 10) + "." + [DigitChar(t % 10)];
    assert r[..|r| - 2] == NatToString(t / 10);
    r
  }

  /** Reads a decimal with exactly one fractional digit, as tenths. */
  function ParseFixed1(s: string): Option<nat> {
    if |s| >= 3 && s[|s| - 2] == '.' && IsDigit(s[|s| - 1]) && AllDigits(s[..|s| - 2]) then
      Some(ParseDigits(s[..|s| - 2]) * 10 + DigitValue(s[|s| - 1]))
    else
      None
  }

  /** `ToFixed1` loses nothing: its text reads back as the same number of tenths. */
  lemma ToFixed1RoundTrip(t: nat)
    ensures ParseFixed1(ToFixed1(t)) == Some(t)
  {
    var r := ToFixed1(t);
    assert r[..|r| - 2] == NatToString(t / 10);
    NatToStringRoundTrip(t / 10);
  }

  /** JavaScript's `String(x)` for `x` = `t` tenths: no point for a whole number,
      otherwise the single fractional digit. */
  function JsNumber(t: nat): (r: string)
    ensures (t % 10 == 0) <==> AllDigits(r)
    ensures IsNumeral(r)
  {
    if t % 10 == 0 then NatToString(t / 10) else ToFixed1(t)
  }

  /** Reads the text `String(x)` produces for a number of tenths. */
  function ParseJsNumber(s: string): Option<nat> {
    if |s| >= 1 && AllDigits(s) then Some(ParseDigits(s) * 10) else ParseFixed1(s)
  }

  lemma JsNumberRoundTrip(t: nat)
    ensures ParseJsNumber(JsNumber(t)) == Some(t)
  {
    if t % 10 == 0 {
      NatToStringRoundTrip(t / 10);
    } else {
      ToFixed1RoundTrip(t);
    }
  }
}

=== FILE: pages.dfy ===
/** The state machine of the analysis page (src/app/analyze/page.tsx): intro, upload,
    confirm, analyzing and results, with the analysis result and the selected image.
    The request to the analysis service is an effect the step reports; its outcome
    comes back as a later event, carrying whatever JSON the service answered, since
    nothing on the way checks it against the declared result type. Scrolling is left
    out. */
module AnalyzePage {
  import opened Wrappers
  import opened Json
  import opened JsValues

  datatype AppState = Intro | Upload | Confirm | Analyzing | Results

  /** `null` stands for "no result yet", as in the component's state. */
  datatype Page = Page(state: AppState, result: Json, image: Option<string>)

  const InitialPage := Page(Intro, JNull, None)

  datatype PageEvent =
    | ImageSelected(image: string)          // the uploader's `onImageSelected`
    | ConfirmClicked
    | AnalysisSucceeded(result: Json)
    | AnalysisFailed(message: string)       // the thrown error's `message`
    | StartClicked
    | ResetClicked

  datatype Effect = NoEffect | RequestAnalysis(image: Option<string>) | FailureToast(description: string)

  const DefaultFailureText := "We couldn't analyze your meal. Please try again with a different image."

  /** `error.message || default`: the message unless it is empty. */
  function FailureText(message: string): (r: string)
    ensures r != ""
    ensures message != "" ==> r == message
  {
    if message != "" then message else DefaultFailureText
  }

  /** The page's handlers, as written: a successful analysis stores whatever it
      answered and moves to the results step. */
  function Step(p: Page, e: PageEvent): (r: (Page, Effect))
    ensures r.0.state == Results <==> e.AnalysisSucceeded?
    ensures e.AnalysisSucceeded? ==> r.0.result == e.result
    ensures r.1.RequestAnalysis? <==> e.ConfirmClicked?
    ensures r.0.state == Upload <==> e.AnalysisFailed? || e.StartClicked? || e.ResetClicked?
    ensures e.ConfirmClicked? ==> r.0 == p.(state := Analyzing) && r.1 == RequestAnalysis(p.image)
    ensures e.StartClicked? ==> r == (p.(state := Upload), NoEffect)
  {
    match e
    case ImageSelected(image) => (p.(state := Confirm, image := Some(image)), NoEffect)
    case ConfirmClicked => (p.(state := Analyzing), RequestAnalysis(p.image))
    case AnalysisSucceeded(result) => (p.(state := Results, result := result), NoEffect)
    case AnalysisFailed(message) => (p.(state := Upload), FailureToast(FailureText(message)))
    case StartClicked => (p.(state := Upload), NoEffect)
    case ResetClicked => (p.(state := Upload, result := JNull), NoEffect)
  }

  /** What `renderContent` puts on the page. The intro view holds the intro section
      and an uploader without a confirm callback; `PrintedValue` is a falsy value
      React writes out as text instead of a component. */
  datatype View =
    | IntroView
    | UploaderView(withConfirm: bool)
    | LoadingView
    | ResultView(result: Json)
    | PrintedValue(text: string)
    | Blank

  /** `analysisResult && <AnalysisResult …/>`: the result component for a truthy
      value, and otherwise the falsy value itself, of which React prints only the
      number 0 and renders nothing for `null`, `false` and the empty string. */
  function ResultsView(result: Json): (v: View)
    ensures v.ResultView? <==> Truthy(result)
    ensures v == Blank <==> !Truthy(result) && result != JNum(0)
  {
    if Truthy(result) then ResultView(result)
    else if result == JNum(0) then PrintedValue("0")
    else Blank
  }

  function Render(p: Page): (v: View)
    ensures v.ResultView? <==> p.state == Results && Truthy(p.result)
    ensures v.UploaderView? <==> p.state == Upload || p.state == Confirm
    ensures v == Blank ==> p.state == Results
  {
    match p.state
    case Intro => IntroView
    case Upload => UploaderView(true)
    case Confirm => UploaderView(true)
    case Analyzing => LoadingView
    case Results => ResultsView(p.result)
  }

  /** The uploader is on screen, and whether it is given the confirm callback. */
  function UploaderConfirm(v: View): Option<bool> {
    match v
    case IntroView => Some(false)
    case UploaderView(withConfirm) => Some(withConfirm)
    case _ => None
  }

  /** An event can happen when the control raising it is on screen; the outcome of
      the analysis arrives only while it is running. */
  predicate Enabled(p: Page, e: PageEvent) {
    var v := Render(p);
    match e
    case ImageSelected(_) => UploaderConfirm(v).Some?
    case ConfirmClicked => UploaderConfirm(v) == Some(true)
    case AnalysisSucceeded(_) => p.state == Analyzing
    case AnalysisFailed(_) => p.state == Analyzing
    case StartClicked => v == IntroView
    case ResetClicked => v.ResultView?
  }

  /** Selecting an image moves to the confirm step from any state and keeps the
      image, even the empty one the uploader reports on cancel; nothing else changes. */
  lemma SelectionAlwaysConfirms(p: Page, image: string)
    ensures var (q, effect) := Step(p, ImageSelected(image));
      q.state == Confirm && q.image == Some(image) && q.result == p.result && effect == NoEffect
  {
  }

  /** A failed analysis returns to the upload step, keeps the previous result, and
      shows the error's message or, when it has none, the default text. */
  lemma FailureKeepsResult(p: Page, message: string)
    ensures var (q, effect) := Step(p, AnalysisFailed(message));
      && q.state == Upload && q.result == p.result && q.image == p.image
      && effect.FailureToast?
      && (effect.description == DefaultFailureText <==> message == "" || message == DefaultFailureText)
  {
  }

  /** Reset clears the result but not the image, from any state. */
  lemma ResetKeepsImage(p: Page)
    ensures var q := Step(p, ResetClicked).0;
      q.state == Upload && q.result == JNull && q.image == p.image && Render(q) == UploaderView(true)
  {
  }

  /** The confirm callback reaches the uploader exactly in the upload and confirm
      steps; the intro's uploader has none. */
  lemma ConfirmOnlyAfterIntro(p: Page)
    ensures UploaderConfirm(Render(p)) == Some(true) <==> p.state == Upload || p.state == Confirm
    ensures UploaderConfirm(Render(p)) == Some(false) <==> p.state == Intro
  {
  }

  /** As written, the results step is left blank exactly when the service answered
      a falsy value other than 0: `null`, `false` or the empty string. */
  lemma BlankExactlyOnFalsyAnswer(p: Page, answer: Json)
    ensures Render(Step(p, AnalysisSucceeded(answer)).0) == Blank <==> !Truthy(answer) && answer != JNum(0)
  {
  }

  function Run(p: Page, events: seq<PageEvent>): Page
    decreases |events|
  {
    if |events| == 0 then p else Run(Step(p, events[0]).0, events[1..])
  }

  predicate EnabledTrace(p: Page, events: seq<PageEvent>)
    decreases |events|
  {
    |events| == 0 || (Enabled(p, events[0]) && EnabledTrace(Step(p, events[0]).0, events[1..]))
  }

  /** A user can reach a blank page: select an image, confirm, and have the model
      answer `null`, which the analysis route passes on as a successful result. */
  lemma NullAnswerBlanksPage(image: string)
    ensures var events := [ImageSelected(image), ConfirmClicked, AnalysisSucceeded(JNull)];
      && EnabledTrace(InitialPage, events)
      && Run(InitialPage, events).state == Results
      && Render(Run(InitialPage, events)) == Blank
  {
    var p1 := Step(InitialPage, ImageSelected(image)).0;
    var p2 := Step(p1, ConfirmClicked).0;
    assert Run(InitialPage, [ImageSelected(image), ConfirmClicked, AnalysisSucceeded(JNull)]) ==
      Run(p2, [AnalysisSucceeded(JNull)]);
  }

  /** The handlers with the evident intent restored: an answer that is not a result
      at all (a falsy value) is treated like a failed analysis without a message,
      so the page returns to the upload step and shows the default text. */
  function CheckedStep(p: Page, e: PageEvent): (r: (Page, Effect))
    ensures r.0.state == Results <==> e.AnalysisSucceeded? && Truthy(e.result)
    ensures r.0.state == Results ==> Truthy(r.0.result)
    ensures e.AnalysisSucceeded? && !Truthy(e.result) ==> r == (p.(state := Upload), FailureToast(DefaultFailureText))
    ensures !(e.AnalysisSucceeded? && !Truthy(e.result)) ==> r == Step(p, e)
  {
    if e.AnalysisSucceeded? && !Truthy(e.result) then Step(p, AnalysisFailed("")) else Step(p, e)
  }

  function CheckedRun(p: Page, events: seq<PageEvent>): Page
    decreases |events|
  {
    if |events| == 0 then p else CheckedRun(CheckedStep(p, events[0]).0, events[1..])
  }

  /** The results step always holds a truthy result. */
  predicate Invariant(p: Page) {
    p.state == Results ==> Truthy(p.result)
  }

  lemma {:induction false} CheckedRunPreservesInvariant(p: Page, events: seq<PageEvent>)
    requires Invariant(p)
    ensures Invariant(CheckedRun(p, events))
    decreases |events|
  {
    if |events| > 0 {
      CheckedRunPreservesInvariant(CheckedStep(p, events[0]).0, events[1..]);
    }
  }

  /** With the checked handlers every page the user can reach shows something, and
      results exactly in the results step, whatever the service answers. */
  lemma CheckedNeverBlank(events: seq<PageEvent>)
    ensures var p := CheckedRun(InitialPage, events);
      Render(p) != Blank && (Render(p).ResultView? <==> p.state == Results)
  {
    CheckedRunPreservesInvariant(InitialPage, events);
  }
}

/** The older page of src/pages/Index.tsx: intro, upload, analyzing and results, with
    no confirm step. Selecting an image starts the analysis at once, a failure shows a
    fixed text, and reset forgets the selected file as well as the result. */
module LegacyIndex {
  import opened Wrappers
  import opened Json
  import JsValues
  import AnalyzePage
  import ApiService
  import Prompts
  import LegacyService

  datatype LegacyState = Intro | Upload | Analyzing | Results

  /** `file` holds the value the uploader reported, which is a string (base64 text,
      a camera photo, or `''` on cancel) although the page declares a `File`;
      `null` is "no result yet". */
  datatype LegacyPage = LegacyPage(state: LegacyState, file: Option<string>, result: Json)

  const InitialLegacyPage := LegacyPage(Intro, None, JNull)

  datatype LegacyEvent =
    | FileSelected(file: string)
    | Succeeded(result: Json)
    | Failed(message: string)
    | Start
    | Reset

  datatype LegacyEffect = Idle | Analyze(file: string) | Toast(description: string)

  function Step(p: LegacyPage, e: LegacyEvent): (r: (LegacyPage, LegacyEffect))
    ensures e.Failed? ==> r.1 == Toast(AnalyzePage.DefaultFailureText)
    ensures r.1.Analyze? <==> e.FileSelected?
    ensures e.Reset? ==> r.0.file.None? && r.0.result == JNull
    ensures r.0.state == Upload <==> e.Failed? || e.Start? || e.Reset?
    ensures e.Start? ==> r == (p.(state := Upload), Idle)
  {
    match e
    case FileSelected(file) => (p.(state := Analyzing, file := Some(file)), Analyze(file))
    case Succeeded(result) => (p.(state := Results, result := result), Idle)
    case Failed(_) => (p.(state := Upload), Toast(AnalyzePage.DefaultFailureText))
    case Start => (p.(state := Upload), Idle)
    case Reset => (LegacyPage(Upload, None, JNull), Idle)
  }

  function Render(p: LegacyPage): (v: AnalyzePage.View)
    ensures AnalyzePage.UploaderConfirm(v) != Some(true)
    ensures p.state != Upload ==> v == AnalyzePage.Render(AnalyzePage.Page(MatchingState(p.state), p.result, p.file))
    ensures v.ResultView? <==> p.state == Results && JsValues.Truthy(p.result)
  {
    match p.state
    case Intro => AnalyzePage.IntroView
    case Upload => AnalyzePage.UploaderView(false)
    case Analyzing => AnalyzePage.LoadingView
    case Results => AnalyzePage.ResultsView(p.result)
  }

  /** The step of the newer page that matches a legacy step. */
  function MatchingState(s: LegacyState): AnalyzePage.AppState {
    match s
    case Intro => AnalyzePage.Intro
    case Upload => AnalyzePage.Upload
    case Analyzing => AnalyzePage.Analyzing
    case Results => AnalyzePage.Results
  }

  /** The two pages are in matching steps with the same result. */
  predicate Corresponds(legacy: LegacyPage, page: AnalyzePage.Page) {
    MatchingState(legacy.state) == page.state && legacy.result == page.result
  }

  /** The newer page refines the older one by splitting selection in two: a legacy
      selection does what a selection followed by confirm does, with the same image
      value handed to the analysis function. Outcomes, start and reset keep the pages in step; the two
      failure texts agree exactly when the error has no message of its own. */
  lemma NewPageRefinesLegacy(legacy: LegacyPage, page: AnalyzePage.Page, file: string, result: Json, message: string)
    requires Corresponds(legacy, page)
    ensures var (o, oe) := Step(legacy, FileSelected(file));
      var (n1, _) := AnalyzePage.Step(page, AnalyzePage.ImageSelected(file));
      var (n2, ne) := AnalyzePage.Step(n1, AnalyzePage.ConfirmClicked);
      Corresponds(o, n2) && oe == Analyze(file) && ne == AnalyzePage.RequestAnalysis(Some(file))
    ensures Corresponds(Step(legacy, Succeeded(result)).0, AnalyzePage.Step(page, AnalyzePage.AnalysisSucceeded(result)).0)
    ensures Corresponds(Step(legacy, Failed(message)).0, AnalyzePage.Step(page, AnalyzePage.AnalysisFailed(message)).0)
    ensures Corresponds(Step(legacy, Start).0, AnalyzePage.Step(page, AnalyzePage.StartClicked).0)
    ensures Corresponds(Step(legacy, Reset).0, AnalyzePage.Step(page, AnalyzePage.ResetClicked).0)
    ensures (Step(legacy, Failed(message)).1.description ==
             AnalyzePage.Step(page, AnalyzePage.AnalysisFailed(message)).1.description)
            <==> (message == "" || message == AnalyzePage.DefaultFailureText)
    ensures Render(legacy).ResultView? <==> AnalyzePage.Render(page).ResultView?
  {
  }

  /** The legacy page never offers a confirm step: its uploader gets no confirm
      callback, and a selection goes straight to analysis from any state. */
  lemma NoConfirmStep(p: LegacyPage, file: string)
    ensures AnalyzePage.UploaderConfirm(Render(p)) == Some(false) <==> p.state == Intro || p.state == Upload
    ensures Step(p, FileSelected(file)).0.state == Analyzing
    ensures Corresponds(InitialLegacyPage, AnalyzePage.InitialPage)
  {
  }

  /** The event the page's handler reaches once the analysis settles: the resolved
      value is stored, a rejection goes to the catch. */
  function Outcome(analysis: Result<Json, ApiService.Error>): (e: LegacyEvent)
    ensures e.Succeeded? <==> analysis.Success?
    ensures analysis.Success? ==> e.result == analysis.value
  {
    match analysis
    case Success(v) => Succeeded(v)
    case Failure(err) => Failed(err.message)
  }

  /** `handleImageSelected` run to completion with a given analysis: the selection
      step, then the step for the analysis' outcome. Gives the final page, the effect
      of the outcome step and the requests the analysis made. */
  function SelectWith(p: LegacyPage, image: string, analysis: ApiService.Run<Result<Json, ApiService.Error>>)
    : (r: (LegacyPage, LegacyEffect, seq<ApiService.Call>))
    ensures r.0.file == Some(image) && r.2 == analysis.calls
    ensures r.0.state == Results <==> analysis.value.Success?
    ensures r.0.state != Results ==> r.0.state == Upload && r.0.result == p.result && r.1 == Toast(AnalyzePage.DefaultFailureText)
  {
    var (q, _) := Step(p, FileSelected(image));
    var (s, effect) := Step(q, Outcome(analysis.value));
    (s, effect, analysis.calls)
  }

  /** `fileToBase64` applied to the uploader's string: `FileReader.readAsDataURL`
      accepts only a `Blob`, so it throws inside the promise's executor and the
      promise rejects; no string is ever read. */
  function ReadUploaderValue(value: string): LegacyService.EncodeOutcome {
    LegacyService.EncodeFailed
  }

  /** The selection as written: the uploader's string goes to `analyzeFoodImage`,
      which expects a file. */
  function SelectAsWritten(p: LegacyPage, image: string, generation: ApiService.GenerationReply, parse: ApiService.Parser)
    : (LegacyPage, LegacyEffect, seq<ApiService.Call>)
  {
    SelectWith(p, image, LegacyService.AnalyzeFoodImage(ReadUploaderValue(image), generation, parse))
  }

  /** As written, every selection fails before any request: the page returns to the
      upload step with the fixed toast, whatever the model would have answered. */
  lemma SelectionAlwaysFails(p: LegacyPage, image: string, generation: ApiService.GenerationReply, parse: ApiService.Parser)
    ensures var (q, effect, calls) := SelectAsWritten(p, image, generation, parse);
      q.state == Upload && q.result == p.result && effect == Toast(AnalyzePage.DefaultFailureText) && calls == []
  {
  }

  /** A user's action on the legacy page: pick an image (the model's reply to the
      request that selection would make comes with it), press start, or reset. */
  datatype UserAction = Choose(image: string, reply: ApiService.GenerationReply) | ClickStart | ClickReset

  function RunAsWritten(p: LegacyPage, actions: seq<UserAction>, parse: ApiService.Parser): LegacyPage
    decreases |actions|
  {
    if |actions| == 0 then p
    else
      var q := match actions[0]
        case Choose(image, reply) => SelectAsWritten(p, image, reply, parse).0
        case ClickStart => Step(p, Start).0
        case ClickReset => Step(p, Reset).0;
      RunAsWritten(q, actions[1..], parse)
  }

  /** As written, no sequence of user actions from the first screen ever shows an
      analysis result. */
  lemma {:induction false} AsWrittenNeverShowsResults(p: LegacyPage, actions: seq<UserAction>, parse: ApiService.Parser)
    requires p.state != Results
    ensures RunAsWritten(p, actions, parse).state != Results
    decreases |actions|
  {
    if |actions| > 0 {
      if actions[0].Choose? {
        SelectionAlwaysFails(p, actions[0].image, actions[0].reply, parse);
      }
      var q := match actions[0]
        case Choose(image, reply) => SelectAsWritten(p, image, reply, parse).0
        case ClickStart => Step(p, Start).0
        case ClickReset => Step(p, Reset).0;
      AsWrittenNeverShowsResults(q, actions[1..], parse);
    }
  }

  /** The selection as intended: the uploader already delivers the image as text,
      so it goes to `getAnalysis` directly. */
  function CheckedSelect(p: LegacyPage, image: string, generation: ApiService.GenerationReply, parse: ApiService.Parser)
    : (LegacyPage, LegacyEffect, seq<ApiService.Call>)
  {
    SelectWith(p, image, LegacyService.GetAnalysis(image, generation, parse))
  }

  /** Corrected, every selection sends exactly one request carrying the image, and
      the page shows the result exactly when the model answers; an answer that is
      JSON is the result shown. */
  lemma CheckedSelectionReachesResults(p: LegacyPage, image: string, generation: ApiService.GenerationReply, parse: ApiService.Parser)
    ensures var (q, effect, calls) := CheckedSelect(p, image, generation, parse);
      calls == [ApiService.Generate(Prompts.LegacyMealInstruction, image)] &&
      (q.state == Results <==> generation.Responded?) &&
      (generation.Responded? && parse(generation.outputText).Some? ==> q.result == parse(generation.outputText).value) &&
      (generation.GenerationThrew? ==> q.state == Upload && effect == Toast(AnalyzePage.DefaultFailureText))
  {
  }
}

=== FILE: prompts.dfy ===
/** The prompt texts of src/prompts.ts: the fixed meal-analysis instruction (whose
    "cannot identify food" answer is the same object the server falls back to) and
    the recommendation template, which splices four arguments into fixed text. */
module Prompts {
  import opened Wrappers
  import opened Text
  import opened Json
  import opened Types
  import opened JsValues

  // The meal-analysis instruction, in three pieces so that the requested
  // "cannot identify food" answer can be named on its own.
  const MealPromptHead :=
    "\n" +
    "You are a nutrition analysis system that can identify food from images and provide detailed macro information.\n" +
    "\n" +
    "TASK:\n" +
    "1. Analyze the provided image.\n" +
    "2. Determine if the image contains food/meal. If not, respond with a default \"Not a food image\" result.\n" +
    "3. If it is food, identify each distinct food item visible in the image.\n" +
    "4. For each food item, estimate the approximate portion size and its macro nutrient content: calories, protein, fat, sugar, fiber, and carbs.\n" +
    "5. Provide the portion size in a human-readable format (e.g., \"1 cup\", \"1 serving\") and in grams and ounces.\n" +
    "6. Calculate the total macro nutrients for the entire meal.\n" +
    "7. Provide a confidence level based on image clarity and your ability to identify items accurately.\n" +
    "\n" +
    "YOUR RESPONSE MUST BE VALID JSON in the following format with no additional text:\n" +
    "{\n" +
    "  \"foodItems\": [\n" +
    "    {\n" +
    "      \"name\": \"Item Name\",\n" +
    "      \"portion\": { \"humanReadable\": \"1 cup\", \"grams\": number, \"ounces\": number },\n" +
    "      \"macros\": { \"calories\": number, \"protein\": number, \"fat\": number, \"carbs\": number, \"sugar\": number, \"fiber\": number }\n" +
    "    }\n" +
    "    // Additional food items...\n" +
    "  ],\n" +
    "  \"totalMacros\": { \"calories\": number, \"protein\": number, \"fat\": number, \"carbs\": number, \"sugar\": number, \"fiber\": number },\n" +
    "  \"confidenceLevel\": \"Low\" | \"Medium\" | \"High\"\n" +
    "}\n" +
    "\n" +
    "IMPORTANT RULES:\n" +
    "- Provide numerical values only for macros (no units)\n" +
    "- Round all values to one decimal place\n" +
    "- If you cannot identify food in the image, return:\n"

  const NoFoodText :=
    "  {\n" +
    "    \"foodItems\": [],\n" +
    "    \"totalMacros\": {\"calories\": 0, \"protein\": 0, \"fat\": 0, \"carbs\": 0, \"sugar\": 0, \"fiber\": 0},\n" +
    "    \"confidenceLevel\": \"Low\"\n" +
    "  }\n"

  const MealPromptTail :=
    "- Base confidence levels on:\n" +
    "  * \"Low\": Poor image quality or unusual/hard to identify foods\n" +
    "  * \"Medium\": Standard food items with some uncertainty about quantities\n" +
    "  * \"High\": Clear image with easily identifiable standard foods\n"


  const MealAnalysisPrompt := MealPromptHead + NoFoodText + MealPromptTail

  // The older client's instruction (src/services/openai.ts), which asks for five
  // macro values per item and no portion.
  const LegacyPromptHead :=
    "\n" +
    "You are a nutrition analysis system that can identify food from images and provide detailed macro information.\n" +
    "\n" +
    "TASK:\n" +
    "1. Analyze the provided image.\n" +
    "2. Determine if the image contains food/meal. If not, respond with a default \"Not a food image\" result.\n" +
    "3. If it is food, identify each distinct food item visible in the image.\n" +
    "4. For each food item, estimate the approximate portion size and its macro nutrient content: calories, protein, fat, and carbs.\n" +
    "5. Calculate the total macro nutrients for the entire meal.\n" +
    "6. Provide a confidence level based on image clarity and your ability to identify items accurately.\n" +
    "\n" +
    "YOUR RESPONSE MUST BE VALID JSON in the following format with no additional text:\n" +
    "{\n" +
    "  \"foodItems\": [\n" +
    "    {\n" +
    "      \"name\": \"Item Name\",\n" +
    "      \"macros\": { \"calories\": number, \"protein\": number, \"fat\": number, \"carbs\": number, \"sugar\": number }\n" +
    "    }\n" +
    "    // Additional food items...\n" +
    "  ],\n" +
    "  \"totalMacros\": { \"calories\": number, \"protein\": number, \"fat\": number, \"carbs\": number, \"sugar\": number },\n" +
    "  \"confidenceLevel\": \"Low\" | \"Medium\" | \"High\"\n" +
    "}\n" +
    "\n" +
    "IMPORTANT RULES:\n" +
    "- Provide numerical values only for macros (no units)\n" +
    "- Round all values to one decimal place\n" +
    "- If you cannot identify food in the image, return:\n"

  const LegacyNoFoodText :=
    "  {\n" +
    "    \"foodItems\": [],\n" +
    "    \"totalMacros\": {\"calories\": 0, \"protein\": 0, \"fat\": 0, \"carbs\": 0, \"sugar\": 0},\n" +
    "    \"confidenceLevel\": \"Low\"\n" +
    "  }\n"

  const LegacyPromptTail :=
    "- Base confidence levels on:\n" +
    "  * \"Low\": Poor image quality or unusual/hard to identify foods\n" +
    "  * \"Medium\": Standard food items with some uncertainty about quantities\n" +
    "  * \"High\": Clear image with easily identifiable standard foods\n"

  const LegacyMealAnalysisPrompt := LegacyPromptHead + LegacyNoFoodText + LegacyPromptTail

  /** The answer the instruction asks for when no food can be identified. */
  const NoFoodObject := JObj([
    ("foodItems", JArr([])),
    ("totalMacros", JObj([
      ("calories", JNum(0)), ("protein", JNum(0)), ("fat", JNum(0)),
      ("carbs", JNum(0)), ("sugar", JNum(0)), ("fiber", JNum(0))])),
    ("confidenceLevel", JStr("Low"))])

  // The recommendation template: fixed text before the first argument and after the last.
  const RecommendationsIntro :=
    "\n" +
    "You are a nutrition coach providing helpful dietary recommendations based on meal analysis.\n" +
    "\n" +
    "MEAL ANALYSIS:"

  const RecommendationsTask :=
    "\n" +
    "TASK:\n" +
    "Generate 3-5 personalized dietary recommendations based on the analyzed meal. Your recommendations should:\n" +
    "1. Be specific and actionable\n" +
    "2. Focus on improving nutritional balance\n" +
    "3. Consider the overall macro distribution\n" +
    "4. Suggest potential improvements or alternatives\n" +
    "5. Be supportive and educational in tone\n" +
    "\n" +
    "YOUR RESPONSE MUST BE A JSON ARRAY OF STRINGS ONLY with no additional text:\n" +
    "recommendations: [\n" +
    "  \"First recommendation\",\n" +
    "  \"Second recommendation\",\n" +
    "  \"Third recommendation\",\n" +
    "  ...\n" +
    "]\n" +
    "\n" +
    "Each recommendation should be complete, clear, and personalized to the meal analysis.\n"

  const ConfidenceLabel := "Confidence level: "

  /** The confidence line's value: `${foodAnalysis.confidenceLevel}` of the analysis
      the request carries, which nothing checks. */
  function ConfidenceText(foodAnalysis: Json): string {
    TemplateText(Property(foodAnalysis, "confidenceLevel"))
  }

  /** `getRecommendationsPromptText`: the four arguments on consecutive lines between
      the fixed introduction and the fixed task. Of the analysis only its
      `confidenceLevel` is read; the arguments are inserted as they are, without
      escaping. */
  function RecommendationsPrompt(foodItemsText: string, totalMacrosText: string, foodAnalysis: Json, userContext: string): string {
    Framed(RecommendationsIntro, foodItemsText, totalMacrosText, ConfidenceLabel + ConfidenceText(foodAnalysis), userContext, RecommendationsTask)
  }

  /** The prompt opens with the introduction on its own line, closes with the task
      after a line break, and the item text and the totals follow the introduction
      on lines of their own. */
  lemma RecommendationsPromptFrame(foodItemsText: string, totalMacrosText: string, foodAnalysis: Json, userContext: string)
    ensures var r := RecommendationsPrompt(foodItemsText, totalMacrosText, foodAnalysis, userContext);
      && StartsWith(r, RecommendationsIntro + "\n")
      && EndsWith(r, "\n" + RecommendationsTask)
      && StartsWith(r[|RecommendationsIntro| + 1..], foodItemsText + "\n" + totalMacrosText + "\n")
  {
    FramedBounds(RecommendationsIntro, foodItemsText, totalMacrosText, ConfidenceLabel + ConfidenceText(foodAnalysis),
      userContext, RecommendationsTask);
  }

  /** What a provider request asks for, by template: one of the two fixed image
      instructions, or the recommendation template with its four arguments. The
      requests record this; `PromptText` is the text actually sent. */
  datatype Prompt =
    | MealAnalysisInstruction
    | LegacyMealInstruction
    | RecommendationsRequest(foodItemsText: string, totalMacrosText: string, foodAnalysis: Json, userContext: string)

  function PromptText(p: Prompt): string {
    match p
    case MealAnalysisInstruction => MealAnalysisPrompt
    case LegacyMealInstruction => LegacyMealAnalysisPrompt
    case RecommendationsRequest(items, total, analysis, context) => RecommendationsPrompt(items, total, analysis, context)
  }

  /** Four lines between a fixed introduction and a fixed task. */
  function Framed(intro: string, a: string, b: string, c: string, d: string, task: string): string {
    Line(intro, Line(a, Line(b, Line(c, Line(d, task)))))
  }

  /** The framed text starts with the introduction and a line break, ends with a
      line break and `task`, and the first two arguments follow the introduction
      on lines of their own. */
  lemma FramedBounds(intro: string, a: string, b: string, c: string, d: string, task: string)
    ensures var r := Framed(intro, a, b, c, d, task);
      && StartsWith(r, intro + "\n")
      && EndsWith(r, "\n" + task)
      && StartsWith(r[|intro| + 1..], a + "\n" + b + "\n")
  {
    var last := Line(d, task);
    var third := Line(c, last);
    var second := Line(b, third);
    var first := Line(a, second);
    LineFrame(d, task, task);
    LineFrame(c, last, "\n" + task);
    LineFrame(b, third, "\n" + task);
    LineFrame(a, second, "\n" + task);
    LineFrame(intro, first, "\n" + task);
    assert StartsWith(first, a + "\n" + b + "\n");
  }

  lemma Flatten<T>(p: seq<T>, q: seq<T>, r: seq<T>, s: seq<T>, u: seq<T>, v: seq<T>)
    ensures p + (q + (r + (s + (u + v)))) == p + q + r + s + u + v
  {
  }

  /** Read line by line, the prompt is the introduction's lines, the lines of each of
      the four arguments in order, then the lines of the closing instructions; an
      argument holding a line break spreads over several lines. */
  lemma PromptLines(foodItemsText: string, totalMacrosText: string, foodAnalysis: Json, userContext: string)
    ensures Split(RecommendationsPrompt(foodItemsText, totalMacrosText, foodAnalysis, userContext), '\n') ==
      Split(RecommendationsIntro, '\n') + Split(foodItemsText, '\n') + Split(totalMacrosText, '\n') +
      Split(ConfidenceLabel + ConfidenceText(foodAnalysis), '\n') + Split(userContext, '\n') +
      Split(RecommendationsTask, '\n')
  {
    FramedLines(RecommendationsIntro, foodItemsText, totalMacrosText, ConfidenceLabel + ConfidenceText(foodAnalysis),
      userContext, RecommendationsTask);
  }

  /** The same, once the item text is known to read as `itemLines` and the other
      three arguments each to fill one line. */
  lemma PromptLinesAt(foodItemsText: string, totalMacrosText: string, foodAnalysis: Json, userContext: string,
                      itemLines: seq<string>, confidenceLine: string)
    requires Split(foodItemsText, '\n') == itemLines
    requires '\n' !in totalMacrosText && '\n' !in userContext
    requires Split(ConfidenceLabel + ConfidenceText(foodAnalysis), '\n') == [confidenceLine]
    ensures Split(RecommendationsPrompt(foodItemsText, totalMacrosText, foodAnalysis, userContext), '\n') ==
      Split(RecommendationsIntro, '\n') + itemLines + [totalMacrosText, confidenceLine, userContext] +
      Split(RecommendationsTask, '\n')
  {
    PromptLines(foodItemsText, totalMacrosText, foodAnalysis, userContext);
    SplitWithoutSeparator(totalMacrosText, '\n');
    SplitWithoutSeparator(userContext, '\n');
    LinesInPlace(Split(RecommendationsPrompt(foodItemsText, totalMacrosText, foodAnalysis, userContext), '\n'),
      Split(RecommendationsIntro, '\n'), foodItemsText, totalMacrosText, ConfidenceLabel + ConfidenceText(foodAnalysis),
      confidenceLine, userContext, Split(RecommendationsTask, '\n'), itemLines);
  }

  /** Replacing the pieces of the argument lines by the lines they stand for. */
  lemma LinesInPlace(whole: seq<string>, head: seq<string>, a: string, b: string, c: string, line: string, d: string, tail: seq<string>, lines: seq<string>)
    requires whole == head + Split(a, '\n') + Split(b, '\n') + Split(c, '\n') + Split(d, '\n') + tail
    requires Split(a, '\n') == lines && Split(b, '\n') == [b] && Split(c, '\n') == [line] && Split(d, '\n') == [d]
    ensures whole == head + lines + [b, line, d] + tail
  {
  }

  lemma FramedLines(intro: string, a: string, b: string, c: string, d: string, task: string)
    ensures Split(Framed(intro, a, b, c, d, task), '\n') ==
      Split(intro, '\n') + Split(a, '\n') + Split(b, '\n') + Split(c, '\n') + Split(d, '\n') + Split(task, '\n')
  {
    var si, sa, sb, sc, sd, t := Split(intro, '\n'), Split(a, '\n'), Split(b, '\n'), Split(c, '\n'), Split(d, '\n'), Split(task, '\n');
    var last := Line(d, task);
    var third := Line(c, last);
    var second := Line(b, third);
    var first := Line(a, second);
    SplitLine(d, task);
    SplitLine(c, last);
    SplitLine(b, third);
    SplitLine(a, second);
    SplitLine(intro, first);
    Flatten(si, sa, sb, sc, sd, t);
  }

  /** The framed text is the fixed part before the third line, the third line, and
      the fixed part after it. */
  lemma FramedAround(intro: string, a: string, b: string, c: string, d: string, task: string)
    ensures Framed(intro, a, b, c, d, task) == (intro + "\n" + a + "\n" + b + "\n") + c + ("\n" + d + "\n" + task)
  {
  }

  /** Two framings whose third lines differ only after a common prefix are equal
      exactly when those third lines are. */
  lemma FramedInjective(intro: string, a: string, b: string, prefix: string, x: string, y: string, d: string, task: string)
    ensures Framed(intro, a, b, prefix + x, d, task) == Framed(intro, a, b, prefix + y, d, task) <==> x == y
  {
    var before := intro + "\n" + a + "\n" + b + "\n" + prefix;
    var after := "\n" + d + "\n" + task;
    if Framed(intro, a, b, prefix + x, d, task) == Framed(intro, a, b, prefix + y, d, task) {
      FramedAround(intro, a, b, prefix + x, d, task);
      FramedAround(intro, a, b, prefix + y, d, task);
      assert Framed(intro, a, b, prefix + x, d, task) == before + x + after;
      assert Framed(intro, a, b, prefix + y, d, task) == before + y + after;
      assert |x| == |y|;
      assert (before + x + after)[|before|..|before| + |x|] == x;
      assert (before + y + after)[|before|..|before| + |y|] == y;
    }
  }

  /** Two analyses give the same prompt exactly when their confidence levels render
      the same: nothing else of the analysis is read. */
  lemma PromptReadsOnlyConfidence(foodItemsText: string, totalMacrosText: string, a: Json, b: Json, userContext: string)
    ensures RecommendationsPrompt(foodItemsText, totalMacrosText, a, userContext) == RecommendationsPrompt(foodItemsText, totalMacrosText, b, userContext)
      <==> ConfidenceText(a) == ConfidenceText(b)
  {
    FramedByConfidence(RecommendationsPrompt(foodItemsText, totalMacrosText, a, userContext),
      RecommendationsPrompt(foodItemsText, totalMacrosText, b, userContext), RecommendationsIntro,
      foodItemsText, totalMacrosText, ConfidenceText(a), ConfidenceText(b), userContext, RecommendationsTask);
  }

  lemma FramedByConfidence(pa: string, pb: string, intro: string, a: string, b: string, x: string, y: string, d: string, task: string)
    requires pa == Framed(intro, a, b, ConfidenceLabel + x, d, task)
    requires pb == Framed(intro, a, b, ConfidenceLabel + y, d, task)
    ensures pa == pb <==> x == y
  {
    FramedInjective(intro, a, b, ConfidenceLabel, x, y, d, task);
  }

  /** The confidence of an analysis of the declared shape renders as its name. */
  lemma ConfidenceTextOfResult(a: AnalysisResult)
    ensures ConfidenceText(ToJson(a)) == ConfidenceName(a.confidenceLevel)
  {
    var f := ToJson(a).fields;
    assert f[2] == ("confidenceLevel", JStr(ConfidenceName(a.confidenceLevel)));
  }

  /** For analyses of the declared shape, two prompts are equal exactly when the
      confidence levels are. */
  lemma ResultPromptsDifferByConfidence(foodItemsText: string, totalMacrosText: string, a: AnalysisResult, b: AnalysisResult, userContext: string)
    ensures RecommendationsPrompt(foodItemsText, totalMacrosText, ToJson(a), userContext) == RecommendationsPrompt(foodItemsText, totalMacrosText, ToJson(b), userContext)
      <==> a.confidenceLevel == b.confidenceLevel
  {
    PromptReadsOnlyConfidence(foodItemsText, totalMacrosText, ToJson(a), ToJson(b), userContext);
    ConfidenceTextOfResult(a);
    ConfidenceTextOfResult(b);
    ConfidenceRoundTrip(a.confidenceLevel);
    ConfidenceRoundTrip(b.confidenceLevel);
  }

  /** The requested "cannot identify food" answer is the empty analysis: no items,
      all six totals zero, low confidence. */
  lemma NoFoodObjectIsEmptyAnalysis()
    ensures NoFoodObject == ToJson(EmptyAnalysis)
    ensures FromJson(NoFoodObject) == Some(EmptyAnalysis)
  {
    ResultRoundTrip(EmptyAnalysis);
  }
}

=== FILE: routes.dfy ===
/** The `POST` handler of src/app/api/analysis/route.ts. The request body is given
    already parsed: `messages` is `None` when the field is absent or falsy. */
module AnalysisRoute {
  import opened Wrappers
  import opened Json
  import opened ApiService

  /** One element of `messages`: the encoded image in `content`. */
  datatype Message = Message(content: string)

  datatype AnalysisRequest = AnalysisRequest(messages: Option<seq<Message>>)

  datatype Response = Response(status: int, body: Json)

  const InvalidDataMessage := "Invalid data"
  const AnalysisErrorMessage := "Error analyzing image"

  /** Status and body for each outcome: a missing `messages` is rejected before
      anything runs; an empty `messages` fails reading `messages[0].content` inside the
      `try` and is a server error; an `UnsafeContentError` passes its message through
      with 403; any other error is a 500 with a fixed message; a result is sent as is. */
  function Post(request: AnalysisRequest, moderation: ModerationReply, generation: GenerationReply, parse: Parser): (r: Run<Response>)
    ensures r.value.status in {200, 400, 403, 500}
    ensures r.value.status != 200 ==> r.value.body.JObj? && Lookup(r.value.body.fields, "ok") == Some(JBool(false))
  {
    if request.messages.None? then
      Run(Response(400, ErrorBody(InvalidDataMessage)), [])
    else if |request.messages.value| == 0 then
      Run(Response(500, ErrorBody(AnalysisErrorMessage)), [])
    else
      var analysis := AnalyzeImage(request.messages.value[0].content, moderation, generation, parse);
      match analysis.value
      case Success(result) => Run(Response(200, result), analysis.calls)
      case Failure(error) =>
        if error.name == UnsafeContentErrorName then
          Run(Response(403, ErrorBody(error.message)), analysis.calls)
        else
          Run(Response(500, ErrorBody(AnalysisErrorMessage)), analysis.calls)
  }

  /** Which status answers which request, as a full case split: 400 exactly when
      `messages` is missing (and the provider is not asked), 403 exactly when a first
      message exists and moderation did not clear it, 200 exactly when moderation
      cleared it and the model answered, 500 otherwise. */
  lemma StatusClassification(request: AnalysisRequest, moderation: ModerationReply, generation: GenerationReply, parse: Parser)
    ensures var r := Post(request, moderation, generation, parse);
      && (r.value.status == 400 <==> request.messages.None?)
      && (r.value.status == 400 ==> r.calls == [] && r.value.body == ErrorBody(InvalidDataMessage))
      && (r.value.status == 403 <==>
            request.messages.Some? && |request.messages.value| > 0 && !IsImageSafe(moderation).isSafe)
      && (r.value.status == 200 <==>
            request.messages.Some? && |request.messages.value| > 0 && IsImageSafe(moderation).isSafe && generation.Responded?)
  {
  }

  /** An unsafe image's error message reaches the client verbatim with status 403. */
  lemma UnsafeMessagePassedThrough(messages: seq<Message>, moderation: ModerationReply, generation: GenerationReply, parse: Parser)
    requires |messages| > 0 && !IsImageSafe(moderation).isSafe
    ensures Post(AnalysisRequest(Some(messages)), moderation, generation, parse).value ==
      Response(403, ErrorBody(UnsafeContentError(IsImageSafe(moderation).categories).message))
  {
  }

  /** Only the first message's content is analysed, and a result is sent unchanged. */
  lemma OnlyFirstMessageAnalysed(messages: seq<Message>, moderation: ModerationReply, generation: GenerationReply, parse: Parser)
    requires |messages| > 0
    ensures var r := Post(AnalysisRequest(Some(messages)), moderation, generation, parse);
      var analysis := AnalyzeImage(messages[0].content, moderation, generation, parse);
      && r.calls == analysis.calls
      && (analysis.value.Success? ==> r.value == Response(200, analysis.value.value))
      && Post(AnalysisRequest(Some(messages[..1])), moderation, generation, parse) == r
  {
  }

  /** A present but empty `messages` is a server error, not a validation error, and
      nothing is sent to the provider. */
  lemma EmptyMessagesIsServerError(moderation: ModerationReply, generation: GenerationReply, parse: Parser)
    ensures Post(AnalysisRequest(Some([])), moderation, generation, parse) ==
      Run(Response(500, ErrorBody(AnalysisErrorMessage)), [])
  {
  }
}

/** The `POST` handler of src/app/api/recommendations/route.ts. The request body is
    given already parsed, as the two values the handler reads from it:
    `data?.foodAnalysis` and `data.userProfile`, each `None` when the body has no
    such member (or, for the analysis, is not an object at all). Neither value is
    checked against the declared types. */
module RecommendationsRoute {
  import opened Wrappers
  import opened Json
  import opened JsValues
  import opened ApiService
  import AnalysisRoute

  datatype RecommendationsRequest = RecommendationsRequest(foodAnalysis: Option<Json>, userProfile: Option<Json>)

  const InvalidDataMessage := "Invalid data"
  const RecommendationsErrorMessage := "Error generating recommendations"

  /** Answer for the outcome of the service call: the list with 200, a thrown error
      with 500. */
  function Respond(outcome: Result<seq<Json>, Error>): (r: AnalysisRoute.Response)
    ensures r.status == 200 <==> outcome.Success?
    ensures outcome.Success? ==> r.body == JArr(outcome.value)
    ensures outcome.Failure? ==> r == AnalysisRoute.Response(500, ErrorBody(RecommendationsErrorMessage))
  {
    match outcome
    case Success(recommendations) => AnalysisRoute.Response(200, JArr(recommendations))
    case Failure(_) => AnalysisRoute.Response(500, ErrorBody(RecommendationsErrorMessage))
  }

  /** A missing or falsy `foodAnalysis` is rejected before anything else runs;
      otherwise the analysis and the possibly absent profile go to the service
      unchanged, and the chat model is asked exactly when the service can read the
      analysis's items and totals. */
  function Post(request: RecommendationsRequest, chat: ChatReply, parse: Parser): (r: Run<AnalysisRoute.Response>)
    ensures r.value.status == 400 <==> request.foodAnalysis.None? || !Truthy(request.foodAnalysis.value)
    ensures r.calls != [] <==>
      request.foodAnalysis.Some? && Truthy(request.foodAnalysis.value) && SummaryReadable(request.foodAnalysis.value)
  {
    if request.foodAnalysis.None? || !Truthy(request.foodAnalysis.value) then
      Run(AnalysisRoute.Response(400, ErrorBody(InvalidDataMessage)), [])
    else
      var service := GenerateRecommendations(request.foodAnalysis.value, request.userProfile, chat, parse);
      Run(Respond(Success(service.value)), service.calls)
  }

  /** The service never throws, so the 500 branch is unreachable: the status is 400
      for a missing or falsy analysis and 200 with the service's list otherwise. */
  lemma NeverServerError(request: RecommendationsRequest, chat: ChatReply, parse: Parser)
    ensures var r := Post(request, chat, parse);
      var rejected := request.foodAnalysis.None? || !Truthy(request.foodAnalysis.value);
      && (rejected ==> r.value == AnalysisRoute.Response(400, ErrorBody(InvalidDataMessage)))
      && (!rejected ==> r.value == AnalysisRoute.Response(200,
            JArr(GenerateRecommendations(request.foodAnalysis.value, request.userProfile, chat, parse).value)))
      && r.value.status != 500
  {
  }

  /** An analysis that is an object but not one the service can summarise (here: one
      without `foodItems`) passes the check, makes the summary code throw inside the
      service, and is answered with 200 and the fallback list; the chat model is not
      asked. */
  lemma MalformedAnalysisFallsBack(fields: seq<(string, Json)>, userProfile: Option<Json>, chat: ChatReply, parse: Parser)
    requires Lookup(fields, "foodItems").None?
    ensures Post(RecommendationsRequest(Some(JObj(fields)), userProfile), chat, parse) ==
      Run(AnalysisRoute.Response(200, JArr([JStr(FallbackRecommendation)])), [])
  {
  }
}

=== FILE: text.dfy ===
/** The JavaScript string operations the application relies on, over `string`
    (a sequence of UTF-16 code units in the original, `seq<char>` here):
    `Array.prototype.join`, `String.prototype.split` on one character,
    `includes` and `startsWith`, together with their algebra. */
module Text {

  /** `xs.join(sep)`: the elements with `sep` between neighbours. */
  function Join(xs: seq<string>, sep: string): string
    decreases |xs|
  {
    if |xs| == 0 then ""
    else if |xs| == 1 then xs[0]
    else xs[0] + sep + Join(xs[1..], sep)
  }

  /** `s.split(c)` for a one-character separator: never empty, and the
      empty string splits into one empty piece. */
  function Split(s: string, c: char): (r: seq<string>)
    ensures |r| >= 1
    decreases |s|
  {
    if |s| == 0 then [""]
    else if s[0] == c then [""] + Split(s[1..], c)
    else
      var rest := Split(s[1..], c);
      [[s[0]] + rest[0]] + rest[1..]
  }

  /** Every element followed by a newline, as a text file is built line by line. */
  function Unlines(ls: seq<string>): string
    decreases |ls|
  {
    if |ls| == 0 then "" else ls[0] + "\n" + Unlines(ls[1..])
  }

  /** A line and the text after it: `first + "\n" + rest`. */
  function Line(first: string, rest: string): string {
    first + "\n" + rest
  }

  /** Number of occurrences of `c` in `s`. */
  function Count(s: string, c: char): nat
    decreases |s|
  {
    if |s| == 0 then 0 else (if s[0] == c then 1 else 0) + Count(s[1..], c)
  }

  /** `s.includes(x)`. */
  ghost predicate IsInfix(x: string, s: string) {
    exists i :: InfixAt(x, s, i)
  }

  /** `x` occurs in `s` starting at index `i`. */
  predicate InfixAt(x: string, s: string, i: int) {
    0 <= i <= |s| - |x| && s[i..i + |x|] == x
  }

  /** `s.startsWith(p)`. */
  predicate StartsWith(s: string, p: string) {
    |p| <= |s| && s[..|p|] == p
  }

  predicate EndsWith(s: string, p: string) {
    |p| <= |s| && s[|s| - |p|..] == p
  }

  predicate NoneContains(xs: seq<string>, c: char) {
    forall i :: 0 <= i < |xs| ==> c !in xs[i]
  }

  /** A string without the separator is a single piece. */
  lemma {:induction false} SplitWithoutSeparator(s: string, c: char)
    requires c !in s
    ensures Split(s, c) == [s]
    decreases |s|
  {
    if |s| > 0 {
      SplitWithoutSeparator(s[1..], c);
      assert [s[0]] + s[1..] == s;
    }
  }

  /** Splitting distributes over a separator: the pieces of `a + c + b` are the
      pieces of `a` followed by the pieces of `b`. */
  lemma {:induction false} SplitAppend(a: string, c: char, b: string)
    ensures Split(a + [c] + b, c) == Split(a, c) + Split(b, c)
    decreases |a|
  {
    var s := a + [c] + b;
    if |a| == 0 {
      assert s == [c] + b;
      assert s[1..] == b;
    } else {
      assert s[0] == a[0];
      assert s[1..] == a[1..] + [c] + b;
      SplitAppend(a[1..], c, b);
    }
  }

  /** The pieces of a line followed by more text. */
  lemma SplitLine(first: string, rest: string)
    ensures Split(Line(first, rest), '\n') == Split(first, '\n') + Split(rest, '\n')
  {
    SplitAppend(first, '\n', rest);
  }

  /** A line put in front keeps both the text's prefix and its end. */
  lemma LineFrame(first: string, rest: string, tail: string)
    requires EndsWith(rest, tail)
    ensures StartsWith(Line(first, rest), first + "\n")
    ensures EndsWith(Line(first, rest), tail)
    ensures Line(first, rest)[|first| + 1..] == rest
  {
    var r := Line(first, rest);
    assert r[|r| - |tail|..] == rest[|rest| - |tail|..];
  }

  /** `split` undoes `join` when no element holds the separator. */
  lemma {:induction false} SplitJoin(xs: seq<string>, c: char)
    requires |xs| >= 1
    requires NoneContains(xs, c)
    ensures Split(Join(xs, [c]), c) == xs
    decreases |xs|
  {
    if |xs| == 1 {
      SplitWithoutSeparator(xs[0], c);
    } else {
      assert Join(xs, [c]) == xs[0] + [c] + Join(xs[1..], [c]);
      SplitAppend(xs[0], c, Join(xs[1..], [c]));
      SplitWithoutSeparator(xs[0], c);
      SplitJoin(xs[1..], c);
      assert [xs[0]] + xs[1..] == xs;
    }
  }

  /** `join` undoes `split`: no character is lost or added. */
  lemma {:induction false} JoinSplit(s: string, c: char)
    ensures Join(Split(s, c), [c]) == s
    decreases |s|
  {
    if |s| > 0 {
      var rest := Split(s[1..], c);
      JoinSplit(s[1..], c);
      if s[0] == c {
        assert Split(s, c) == [""] + rest;
        if |rest| == 1 {
          assert Join(Split(s, c), [c]) == "" + [c] + rest[0];
        } else {
          assert Join(Split(s, c), [c]) == "" + [c] + Join(rest, [c]);
        }
        assert [s[0]] + s[1..] == s;
      } else {
        var pieces := [[s[0]] + rest[0]] + rest[1..];
        assert Split(s, c) == pieces;
        if |rest| == 1 {
          assert Join(pieces, [c]) == [s[0]] + rest[0];
        } else {
          assert pieces[1..] == rest[1..];
          assert Join(rest, [c]) == rest[0] + [c] + Join(rest[1..], [c]);
          assert Join(pieces, [c]) == [s[0]] + rest[0] + [c] + Join(rest[1..], [c]);
        }
        assert [s[0]] + s[1..] == s;
      }
    }
  }

  /** One more piece than separators. */
  lemma {:induction false} SplitCount(s: string, c: char)
    ensures |Split(s, c)| == Count(s, c) + 1
    decreases |s|
  {
    if |s| > 0 {
      SplitCount(s[1..], c);
    }
  }

  /** Newline-terminated lines read back as those lines and a final empty piece. */
  lemma {:induction false} SplitUnlines(ls: seq<string>)
    requires NoneContains(ls, '\n')
    ensures Split(Unlines(ls), '\n') == ls + [""]
    decreases |ls|
  {
    if |ls| > 0 {
      var tail := ls[1..];
      var u := Unlines(tail);
      assert NoneContains(tail, '\n') by {
        forall i | 0 <= i < |tail| ensures '\n' !in tail[i] {
          assert tail[i] == ls[i + 1];
        }
      }
      SplitUnlines(tail);
      SplitWithoutSeparator(ls[0], '\n');
      SplitAppend(ls[0], '\n', u);
      assert Unlines(ls) == ls[0] + ['\n'] + u;
      assert Split(Unlines(ls), '\n') == [ls[0]] + (tail + [""]);
      assert [ls[0]] + (tail + [""]) == ls + [""];
    }
  }

  /** Newline-terminated lines start with the first line and its newline. */
  lemma UnlinesStartsWith(ls: seq<string>)
    requires |ls| > 0
    ensures StartsWith(Unlines(ls), ls[0] + "\n")
  {
    assert Unlines(ls) == (ls[0] + "\n") + Unlines(ls[1..]);
  }

  /** Newline-terminated lines are the first line, a newline and the other lines. */
  lemma UnlinesCons(ls: seq<string>)
    requires |ls| > 0
    ensures Unlines(ls) == ls[0] + ("\n" + Unlines(ls[1..]))
  {
    ConcatAssociates(ls[0], "\n", Unlines(ls[1..]));
  }

  lemma ConcatAssociates(a: string, b: string, c: string)
    ensures (a + b) + c == a + (b + c)
  {
  }

  /** Newline-terminated lines end with the last line and its newline. */
  lemma {:induction false} UnlinesEndsWith(ls: seq<string>)
    requires |ls| > 0
    ensures EndsWith(Unlines(ls), ls[|ls| - 1] + "\n")
    decreases |ls|
  {
    var last := ls[|ls| - 1] + "\n";
    if |ls| == 1 {
      assert Unlines(ls) == last + "";
    } else {
      var front, rest := ls[0] + "\n", Unlines(ls[1..]);
      UnlinesEndsWith(ls[1..]);
      assert Unlines(ls) == front + rest;
      assert (front + rest)[|front + rest| - |last|..] == rest[|rest| - |last|..];
    }
  }

  /** Newline-terminated lines hold exactly one newline per line. */
  lemma UnlinesCount(ls: seq<string>)
    requires NoneContains(ls, '\n')
    ensures Count(Unlines(ls), '\n') == |ls|
  {
    SplitUnlines(ls);
    SplitCount(Unlines(ls), '\n');
  }

  /** Every element of a join appears in it. */
  lemma {:induction false} JoinContainsElement(xs: seq<string>, sep: string, k: nat)
    requires k < |xs|
    ensures IsInfix(xs[k], Join(xs, sep))
    decreases |xs|
  {
    var j := Join(xs, sep);
    if |xs| == 1 {
      assert InfixAt(xs[0], j, 0);
    } else if k == 0 {
      assert j == xs[0] + (sep + Join(xs[1..], sep));
      assert InfixAt(xs[0], j, 0);
    } else {
      JoinContainsElement(xs[1..], sep, k - 1);
      var rest := Join(xs[1..], sep);
      var i :| InfixAt(xs[k], rest, i);
      var off := |xs[0]| + |sep|;
      assert j == (xs[0] + sep) + rest;
      assert j[off + i..off + i + |xs[k]|] == rest[i..i + |xs[k]|];
      assert InfixAt(xs[k], j, off + i);
    }
  }

  /** Text added after a prefix does not disturb it. */
  lemma InfixOfPrefix(x: string, a: string, b: string)
    requires IsInfix(x, b)
    ensures IsInfix(x, a + b)
  {
    var i :| InfixAt(x, b, i);
    assert (a + b)[|a| + i..|a| + i + |x|] == b[i..i + |x|];
    assert InfixAt(x, a + b, |a| + i);
  }

  /** A character that is in no element and not in the separator is not in the join. */
  lemma {:induction false} JoinAvoids(xs: seq<string>, sep: string, c: char)
    requires NoneContains(xs, c) && c !in sep
    ensures c !in Join(xs, sep)
    decreases |xs|
  {
    if |xs| > 1 {
      JoinAvoids(xs[1..], sep, c);
      assert Join(xs, sep) == xs[0] + sep + Join(xs[1..], sep);
    }
  }

  /** Joining a nonempty tail after one more element. */
  lemma JoinCons(x: string, xs: seq<string>, sep: string)
    requires |xs| >= 1
    ensures Join([x] + xs, sep) == x + sep + Join(xs, sep)
  {
    assert ([x] + xs)[1..] == xs;
  }
}

=== FILE: types.dfy ===
/** The shared data model of src/types.ts: an analysis result holds the detected food
    items (each with a portion and six macro values), the meal total, and a
    three-valued confidence. Quantities are natural numbers of tenths. The module
    also fixes the JSON shape of these records (`ToJson`) and a decoder that checks
    that shape (`FromJson`), which the application itself never does: it casts. */
module Types {
  import opened Wrappers
  import opened Json

  datatype Confidence = Low | Medium | High

  /** The string the JSON and the user interface carry for a confidence level. */
  function ConfidenceName(c: Confidence): string {
    match c
    case Low => "Low"
    case Medium => "Medium"
    case High => "High"
  }

  function ParseConfidence(s: string): (r: Option<Confidence>)
    ensures r.Some? <==> s == "Low" || s == "Medium" || s == "High"
    ensures r.Some? ==> ConfidenceName(r.value) == s
  {
    if s == "Low" then Some(Low)
    else if s == "Medium" then Some(Medium)
    else if s == "High" then Some(High)
    else None
  }

  lemma ConfidenceRoundTrip(c: Confidence)
    ensures ParseConfidence(ConfidenceName(c)) == Some(c)
  {
  }

  /** Calories, protein, fat, carbs, sugar and fiber, in tenths. */
  datatype Macros = Macros(calories: nat, protein: nat, fat: nat, carbs: nat, sugar: nat, fiber: nat)

  datatype Portion = Portion(humanReadable: string, grams: nat, ounces: nat)

  datatype FoodItem = FoodItem(name: string, macros: Macros, portion: Portion)

  datatype AnalysisResult = AnalysisResult(foodItems: seq<FoodItem>, totalMacros: Macros, confidenceLevel: Confidence)

  datatype UserProfile = UserProfile(
    goal: string,
    activityLevel: string,
    dietaryRestrictions: seq<string>,
    healthConditions: seq<string>)

  const ZeroMacros := Macros(0, 0, 0, 0, 0, 0)

  /** "No food detected": no items, all-zero totals, low confidence. */
  const EmptyAnalysis := AnalysisResult([], ZeroMacros, Low)

  function MacrosToJson(m: Macros): Json {
    JObj([
      ("calories", JNum(m.calories)),
      ("protein", JNum(m.protein)),
      ("fat", JNum(m.fat)),
      ("carbs", JNum(m.carbs)),
      ("sugar", JNum(m.sugar)),
      ("fiber", JNum(m.fiber))])
  }

  function PortionToJson(p: Portion): Json {
    JObj([("humanReadable", JStr(p.humanReadable)), ("grams", JNum(p.grams)), ("ounces", JNum(p.ounces))])
  }

  function ItemToJson(item: FoodItem): Json {
    JObj([("name", JStr(item.name)), ("portion", PortionToJson(item.portion)), ("macros", MacrosToJson(item.macros))])
  }

  function ItemsToJson(items: seq<FoodItem>): (r: seq<Json>)
    ensures |r| == |items|
    ensures forall i :: 0 <= i < |items| ==> r[i] == ItemToJson(items[i])
  {
    seq(|items|, i requires 0 <= i < |items| => ItemToJson(items[i]))
  }

  function ToJson(a: AnalysisResult): Json {
    JObj([
      ("foodItems", JArr(ItemsToJson(a.foodItems))),
      ("totalMacros", MacrosToJson(a.totalMacros)),
      ("confidenceLevel", JStr(ConfidenceName(a.confidenceLevel)))])
  }

  function DecodeNat(j: Option<Json>): Option<nat> {
    if j.Some? && j.value.JNum? && j.value.tenths >= 0 then Some(j.value.tenths) else None
  }

  function DecodeString(j: Option<Json>): Option<string> {
    if j.Some? && j.value.JStr? then Some(j.value.s) else None
  }

  function DecodeMacros(j: Option<Json>): Option<Macros> {
    if j.None? || !j.value.JObj? then None
    else
      var f := j.value.fields;
      var c, p, fa, ca, s, fi :=
        DecodeNat(Lookup(f, "calories")), DecodeNat(Lookup(f, "protein")), DecodeNat(Lookup(f, "fat")),
        DecodeNat(Lookup(f, "carbs")), DecodeNat(Lookup(f, "sugar")), DecodeNat(Lookup(f, "fiber"));
      if c.Some? && p.Some? && fa.Some? && ca.Some? && s.Some? && fi.Some? then
        Some(Macros(c.value, p.value, fa.value, ca.value, s.value, fi.value))
      else None
  }

  function DecodePortion(j: Option<Json>): Option<Portion> {
    if j.None? || !j.value.JObj? then None
    else
      var f := j.value.fields;
      var h, g, o := DecodeString(Lookup(f, "humanReadable")), DecodeNat(Lookup(f, "grams")), DecodeNat(Lookup(f, "ounces"));
      if h.Some? && g.Some? && o.Some? then Some(Portion(h.value, g.value, o.value)) else None
  }

  function DecodeItem(j: Json): Option<FoodItem> {
    if !j.JObj? then None
    else
      var n, m, p := DecodeString(Lookup(j.fields, "name")), DecodeMacros(Lookup(j.fields, "macros")),
        DecodePortion(Lookup(j.fields, "portion"));
      if n.Some? && m.Some? && p.Some? then Some(FoodItem(n.value, m.value, p.value)) else None
  }

  /** Decodes every element, or fails when one does not have the item shape. */
  function DecodeItems(js: seq<Json>): (r: Option<seq<FoodItem>>)
    ensures r.Some? ==> |r.value| == |js|
    decreases |js|
  {
    if |js| == 0 then Some([])
    else
      var head, tail := DecodeItem(js[0]), DecodeItems(js[1..]);
      if head.Some? && tail.Some? then Some([head.value] + tail.value) else None
  }

  /** Checks that a parsed JSON value has the shape of an analysis result. */
  function FromJson(j: Json): Option<AnalysisResult> {
    if !j.JObj? then None
    else
      var items := Lookup(j.fields, "foodItems");
      var total := DecodeMacros(Lookup(j.fields, "totalMacros"));
      var level := DecodeString(Lookup(j.fields, "confidenceLevel"));
      if items.Some? && items.value.JArr? && total.Some? && level.Some? then
        var decoded := DecodeItems(items.value.items);
        var confidence := ParseConfidence(level.value);
        if decoded.Some? && confidence.Some? then
          Some(AnalysisResult(decoded.value, total.value, confidence.value))
        else None
      else None
  }

  lemma MacrosRoundTrip(m: Macros)
    ensures DecodeMacros(Some(MacrosToJson(m))) == Some(m)
  {
    var f := MacrosToJson(m).fields;
    LookupLast(f, 0);
    LookupLast(f, 1);
    LookupLast(f, 2);
    LookupLast(f, 3);
    LookupLast(f, 4);
    LookupLast(f, 5);
  }

  lemma ItemRoundTrip(item: FoodItem)
    ensures DecodeItem(ItemToJson(item)) == Some(item)
  {
    var f := ItemToJson(item).fields;
    var pf := PortionToJson(item.portion).fields;
    LookupLast(f, 0);
    LookupLast(f, 1);
    LookupLast(f, 2);
    LookupLast(pf, 0);
    LookupLast(pf, 1);
    LookupLast(pf, 2);
    MacrosRoundTrip(item.macros);
  }

  lemma {:induction false} ItemsRoundTrip(items: seq<FoodItem>)
    ensures DecodeItems(ItemsToJson(items)) == Some(items)
    decreases |items|
  {
    if |items| > 0 {
      var js := ItemsToJson(items);
      assert js[1..] == ItemsToJson(items[1..]);
      ItemRoundTrip(items[0]);
      ItemsRoundTrip(items[1..]);
      assert [items[0]] + items[1..] == items;
    }
  }

  /** Decoding recovers every analysis result from its JSON form. */
  lemma ResultRoundTrip(a: AnalysisResult)
    ensures FromJson(ToJson(a)) == Some(a)
  {
    var f := ToJson(a).fields;
    LookupLast(f, 0);
    LookupLast(f, 1);
    LookupLast(f, 2);
    ItemsRoundTrip(a.foodItems);
    MacrosRoundTrip(a.totalMacros);
  }
}

=== FILE: uploader.dfy ===
/** The flag machine of the `ImageUploader` component (src/components/ImageUploader.tsx):
    the preview image, whether the live camera is open, and whether the preview came
    from the camera. Reading files and taking photos are done by the browser; here a
    chosen file arrives with its MIME type, data URL and base64 text, and a capture
    arrives with the photo. Every event reports what, if anything, is passed to the
    `onImageSelected` callback. */
module ImageUploader {
  import opened Wrappers
  import opened Text

  datatype Uploader = Uploader(preview: Option<string>, cameraOpen: bool, fromCamera: bool)

  const InitialUploader := Uploader(None, false, false)

  /** `previewImage` is truthy: present and not the empty string. */
  predicate HasPreview(u: Uploader) {
    u.preview.Some? && u.preview.value != ""
  }

  datatype SelectedFile = SelectedFile(mimeType: string, dataUrl: string, base64: string)

  datatype UploaderEvent =
    | FileChosen(file: Option<SelectedFile>)   // the file input changed; `None` when no file was picked
    | TakePhotoClicked
    | CaptureClicked(photo: string)
    | TakeAnotherClicked                       // `activateCamera`
    | CancelClicked                            // `onCancel`
    | UploadClicked                            // opens the file dialog only

  /** The new flags, the value passed to `onImageSelected` (if it is called), and
      whether the invalid-file-type toast is shown. */
  datatype Outcome = Outcome(next: Uploader, selected: Option<string>, invalidTypeToast: bool)

  const ImageMimePrefix := "image/"

  function Step(u: Uploader, e: UploaderEvent): (r: Outcome)
    ensures r.invalidTypeToast ==> r.next == u && r.selected.None?
    ensures r.next.cameraOpen != u.cameraOpen ==> !e.FileChosen? && !e.UploadClicked?
    ensures r.next.fromCamera ==> e.CaptureClicked? || u.fromCamera
    ensures r.selected.Some? <==>
              (e.FileChosen? && e.file.Some? && StartsWith(e.file.value.mimeType, ImageMimePrefix)) ||
              e.CaptureClicked? || e.TakeAnotherClicked? || e.CancelClicked?
  {
    match e
    case FileChosen(file) =>
      if file.None? then Outcome(u, None, false)
      else if !StartsWith(file.value.mimeType, ImageMimePrefix) then Outcome(u, None, true)
      else Outcome(u.(preview := Some(file.value.dataUrl), fromCamera := false), Some(file.value.base64), false)
    case TakePhotoClicked => Outcome(u.(cameraOpen := true), None, false)
    case CaptureClicked(photo) => Outcome(Uploader(Some(photo), false, true), Some(photo), false)
    case TakeAnotherClicked => Outcome(u.(cameraOpen := true, preview := None), Some(""), false)
    case CancelClicked => Outcome(Uploader(None, false, false), Some(""), false)
    case UploadClicked => Outcome(u, None, false)
  }

  // ---- what is shown ----

  predicate ShowsLiveCamera(u: Uploader) { u.cameraOpen && !HasPreview(u) }
  predicate ShowsPreview(u: Uploader) { HasPreview(u) }
  predicate ShowsPlaceholder(u: Uploader) { !u.cameraOpen && !HasPreview(u) }

  predicate ShowsTakePhoto(u: Uploader) {
    (!HasPreview(u) && !u.cameraOpen) || (HasPreview(u) && !u.fromCamera)
  }
  predicate ShowsCapture(u: Uploader) { !HasPreview(u) && u.cameraOpen }
  predicate ShowsTakeAnother(u: Uploader) { HasPreview(u) && u.fromCamera }
  predicate ShowsConfirm(u: Uploader, hasConfirm: bool) { hasConfirm && HasPreview(u) }
  predicate ShowsCancel(u: Uploader) { HasPreview(u) }

  function UploadLabel(u: Uploader): string {
    if HasPreview(u) && !u.fromCamera then "Upload Another Photo" else "Upload Photo"
  }

  /** An event can happen when its control is on screen; the file input and the
      upload button are always there. */
  predicate Enabled(u: Uploader, e: UploaderEvent) {
    match e
    case FileChosen(_) => true
    case TakePhotoClicked => ShowsTakePhoto(u)
    case CaptureClicked(_) => ShowsCapture(u)
    case TakeAnotherClicked => ShowsTakeAnother(u)
    case CancelClicked => ShowsCancel(u)
    case UploadClicked => true
  }

  // ---- properties ----

  /** A rejected or missing file changes nothing and reports nothing; an image file
      shows its preview, marks it as not from the camera and reports its base64 text. */
  lemma FileChoice(u: Uploader, file: Option<SelectedFile>)
    ensures var r := Step(u, FileChosen(file));
      && (r.next == u <==> (file.None? || !StartsWith(file.value.mimeType, ImageMimePrefix) ||
                             (u.preview == Some(file.value.dataUrl) && !u.fromCamera)))
      && (r.selected.Some? <==> file.Some? && StartsWith(file.value.mimeType, ImageMimePrefix))
      && (r.selected.Some? ==>
            (r.selected.value == file.value.base64 && r.next.preview == Some(file.value.dataUrl) &&
             !r.next.fromCamera && r.next.cameraOpen == u.cameraOpen))
      && (r.invalidTypeToast <==> file.Some? && !StartsWith(file.value.mimeType, ImageMimePrefix))
  {
  }

  /** Exactly one of the live camera, the preview and the placeholder is shown. */
  lemma ExactlyOneView(u: Uploader)
    ensures ShowsLiveCamera(u) || ShowsPreview(u) || ShowsPlaceholder(u)
    ensures !(ShowsLiveCamera(u) && ShowsPreview(u))
    ensures !(ShowsLiveCamera(u) && ShowsPlaceholder(u))
    ensures !(ShowsPreview(u) && ShowsPlaceholder(u))
  {
  }

  /** Exactly one of "Take Photo", "Capture" and "Take another photo" is shown. */
  lemma ExactlyOneCameraButton(u: Uploader)
    ensures ShowsTakePhoto(u) || ShowsCapture(u) || ShowsTakeAnother(u)
    ensures !(ShowsTakePhoto(u) && ShowsCapture(u))
    ensures !(ShowsTakePhoto(u) && ShowsTakeAnother(u))
    ensures !(ShowsCapture(u) && ShowsTakeAnother(u))
  {
  }

  /** "Capture" is on screen exactly when the live camera is mounted, so the camera
      a capture reads from always exists. */
  lemma CaptureNeedsLiveCamera(u: Uploader)
    ensures ShowsCapture(u) <==> ShowsLiveCamera(u)
  {
  }

  /** "Take Photo" pressed over an uploaded preview opens the camera without showing
      it: the preview stays and "Take Photo" remains the camera button. */
  lemma TakePhotoOverUploadKeepsCameraHidden(u: Uploader)
    requires HasPreview(u) && !u.fromCamera
    ensures var r := Step(u, TakePhotoClicked);
      r.next.cameraOpen && !ShowsLiveCamera(r.next) && ShowsPreview(r.next) && ShowsTakePhoto(r.next) && r.selected.None?
  {
  }

  /** A capture shows the photo as a camera preview, closes the camera and reports
      the photo; nothing of the earlier state survives it. */
  lemma CaptureShowsPhoto(u: Uploader, photo: string)
    ensures var r := Step(u, CaptureClicked(photo));
      && r.next.preview == Some(photo) && r.next.fromCamera && !r.next.cameraOpen
      && r.selected == Some(photo) && !r.invalidTypeToast
      && r == Step(InitialUploader, CaptureClicked(photo))
    ensures var r := Step(u, CaptureClicked(photo));
      photo != "" ==> ShowsPreview(r.next) && ShowsTakeAnother(r.next) && Invariant(r.next)
  {
  }

  /** "Take Photo" only raises the camera flag and reports nothing; from the
      placeholder it brings up the live camera with its "Capture" button. */
  lemma TakePhotoOpensCamera(u: Uploader)
    ensures var r := Step(u, TakePhotoClicked);
      r.next == u.(cameraOpen := true) && r.selected.None? && !r.invalidTypeToast
    ensures !HasPreview(u) ==> ShowsLiveCamera(Step(u, TakePhotoClicked).next) && ShowsCapture(Step(u, TakePhotoClicked).next)
  {
  }

  /** Cancel and "Take another photo" both report the empty image, and both hide the
      preview; cancel returns to the first screen, and "Take another photo" opens the
      camera and keeps where the cleared preview came from. */
  lemma ClearingReportsEmptyImage(u: Uploader)
    ensures Step(u, CancelClicked).next == InitialUploader
    ensures Step(u, TakeAnotherClicked).next == u.(cameraOpen := true, preview := None)
    ensures Step(u, CancelClicked).selected == Some("") && Step(u, TakeAnotherClicked).selected == Some("")
    ensures !HasPreview(Step(u, CancelClicked).next) && ShowsPlaceholder(Step(u, CancelClicked).next)
    ensures !HasPreview(Step(u, TakeAnotherClicked).next) && ShowsLiveCamera(Step(u, TakeAnotherClicked).next)
  {
  }

  /** A preview from the camera is never shown with the camera open. */
  predicate Invariant(u: Uploader) {
    HasPreview(u) && u.fromCamera ==> !u.cameraOpen
  }

  lemma StepPreservesInvariant(u: Uploader, e: UploaderEvent)
    requires Invariant(u) && Enabled(u, e)
    ensures Invariant(Step(u, e).next)
  {
  }

  /** The flags after a sequence of events. */
  function Run(u: Uploader, events: seq<UploaderEvent>): Uploader
    decreases |events|
  {
    if |events| == 0 then u else Run(Step(u, events[0]).next, events[1..])
  }

  /** Every event happened while its control was on screen. */
  predicate EnabledTrace(u: Uploader, events: seq<UploaderEvent>)
    decreases |events|
  {
    |events| == 0 || (Enabled(u, events[0]) && EnabledTrace(Step(u, events[0]).next, events[1..]))
  }

  lemma {:induction false} RunPreservesInvariant(u: Uploader, events: seq<UploaderEvent>)
    requires Invariant(u) && EnabledTrace(u, events)
    ensures Invariant(Run(u, events))
    decreases |events|
  {
    if |events| > 0 {
      StepPreservesInvariant(u, events[0]);
      RunPreservesInvariant(Step(u, events[0]).next, events[1..]);
    }
  }

  /** In every state the user can reach, a camera preview is never shown with the
      camera open: "Take another photo" is shown only with the camera flag down, so
      that button's click is what raises it again. */
  lemma ReachableStates(events: seq<UploaderEvent>)
    requires EnabledTrace(InitialUploader, events)
    ensures Invariant(Run(InitialUploader, events))
  {
    RunPreservesInvariant(InitialUploader, events);
  }

  /** In every state, the upload button reads "Upload Another Photo" exactly when
      "Take Photo" sits next to a preview. */
  lemma UploadLabelMatchesButtons(u: Uploader)
    ensures UploadLabel(u) == "Upload Another Photo" <==> ShowsTakePhoto(u) && ShowsPreview(u)
    ensures UploadLabel(u) == "Upload Photo" <==> !HasPreview(u) || u.fromCamera
  {
  }
}

=== FILE: wrappers.dfy ===
/** Option and Result, the two failure-carrying datatypes the rest of the model uses
    for values that may be missing (a JavaScript `undefined`) and for thrown errors. */
module Wrappers {

  datatype Option<+T> = None | Some(value: T) {

    /** The value, or `default` when there is none. */
    function GetOr(default: T): T {
      match this
      case Some(v) => v
      case None => default
    }
  }

  datatype Result<+R, +E> = Success(value: R) | Failure(error: E)
}
